=== FILE: README.md ===
# LogoFX core: editable models, list merge, enumerable helpers, view location

A Dafny model of the algorithmic core of the LogoFX MVVM framework, with proofs
about it. Four parts are covered:

- **Editable models** (`Editable`, `EditableProofs`). `EditableModel<T>` captures
  its own state in a `Snapshot` and restores it later. The captured state is every
  public property with a public setter, plus each `[EditableList]` list and the
  captured `IsDirty`. Around the snapshot sit:
  - the IEditableObject edit stack: BeginEdit, EndEdit and CancelEdit;
  - an undo buffer, with the `IsDirty` and `CanUndo` flags;
  - the transactional surface: MakeDirty, Undo, Apply and CancelApply;
  - the per-property error map behind `SetError`, the indexer and `HasErrors`.

  Reflection becomes an explicit schema: the names of the `[EditableSingle]`
  properties, and each `[EditableList]` property with its `CloneItems` flag.
  `ICloneable<object>` becomes a function from a value to its clone, or to
  `None` for a value that is not cloneable. Faults such as `Stack.Pop` on an
  empty stack and `Debug.Assert(CanUndo)` are `Failure` results.
- **List merge** (`Reconcile`, `MergeProofs`). `Extensions.Merge` reconciles a
  destination list with a source list in place:
  - it removes the destination elements that no source element matches;
  - it appends a factory-made element for each source element with no match;
  - it calls `IMergeable.Merge` on the first match otherwise.

  The model returns the new destination together with the ordered trace of
  removals, factory calls and merge calls.
- **Enumerable helpers** (`EnumerableExtensions`):
  - the eager `ForEach` overloads: plain, indexed, and ranged;
  - the lazy `ForEachByOne` overloads: plain, indexed, and ranged.

  A lazy enumeration is observed through the number of `MoveNext` calls its
  consumer makes.
- **View location** (`ViewLocation`). Three parts of `BootstrapperContainerBase`:
  - the view type name derived from a view-model type name;
  - the `_typedic` cache of view-type lookups;
  - the filter that picks the types registered as view models.

The model follows the code on these points:
- A snapshot captures the `ValidationErrors` property, not the private `_errors`
  map that `SetError` and the indexer use. Restore therefore never touches the
  error map.
- `CanUndo` has a public setter, so the snapshot captures it and Restore writes it back.
- Apply and Undo clear `CanUndo` but keep the old undo buffer, and the public
  `CanUndo` setter can raise the flag when there is no buffer at all. So the flag
  does not track whether a buffer exists. The invariant the code does keep is
  `Consistent` in `EditableProofs`; `PublicCanUndoSetterArmsMissingBuffer` shows
  the one way around it.
- Merge rejects a null source as well as a null comparator or creator. A null destination fails in `ToList`.
- An `[EditableList]` property whose value is not a list is not rejected at
  snapshot time. It is captured like any other property (see Left out).
- A snapshot copies each `[EditableList]` list through `OfType<object>()`, which
  skips null items. Restoring a snapshot (CancelEdit, Undo) therefore gives a
  list back without the nulls it held when the snapshot was taken.
  `EditableProofs.CancelEditDropsNullItem` shows it on `[1, null, 2]`.

## Model

| member | source | states |
|---|---|---|
| Editable.Take | LogoFX.Client.Mvvm.Model/EditableModel.cs:38-79 | captures the current property values, CanUndo, ValidationErrors and IsDirty, and each list with exactly its non-null items (`OfType<object>()` skips null), never longer than the live list; nothing of the edit stack, the undo buffer or the error map is captured; TakeRestoreRoundTrip and RestoreRevertsLaterEdits relate it to Restore |
| Editable.CapturedLists | LogoFX.Client.Mvvm.Model/EditableModel.cs:42-46 | each `[EditableList]` list is copied through the non-null filter, under the same property names; RelistCapturedIff states what that loses |
| Editable.Restore | LogoFX.Client.Mvvm.Model/EditableModel.cs:81-113 | every captured scalar is written back, cloned exactly when the property is `[EditableSingle]` and the value is cloneable; every captured list replaces the live list, every re-added item non-null (a `Clone()` that returns null is not modelled); ValidationErrors, CanUndo and IsDirty come from the snapshot; the error map, edit stack, undo buffer and uncaptured properties are unchanged |
| Editable.RestoredList | LogoFX.Client.Mvvm.Model/EditableModel.cs:95-105 | the refilled list has the captured length; each item is the captured one unless CloneItems is set and the item is cloneable, then it is its clone |
| Editable.SetError | LogoFX.Client.Mvvm.Model/EditableModel.cs:152-164 | a null or empty message removes the property's entry, so the indexer then reports ""; any other message becomes the indexer's answer; every other property's message and all other state are unchanged |
| Editable.ErrorFor | LogoFX.Client.Mvvm.Model/EditableModel.cs:196-207 | the indexer answers the recorded message for the column, or the empty string when the column has no entry |
| Editable.HasErrors | LogoFX.Client.Mvvm.Model/EditableModel.cs:284-287 | holds exactly when some column has an entry in the error map |
| Editable.ClearDirty | LogoFX.Client.Mvvm.Model/EditableModel.cs:252-256 | IsDirty and CanUndo both become false; property values, lists and the undo buffer are kept |
| Editable.SetUndoBuffer | LogoFX.Client.Mvvm.Model/EditableModel.cs:170-175 | the given snapshot becomes the undo buffer and CanUndo is set; values, lists, IsDirty, ValidationErrors, the edit stack and the error map are unchanged |
| Editable.ClearUndoBuffer | LogoFX.Client.Mvvm.Model/EditableModel.cs:185-190 | despite its name the buffer is kept: only CanUndo and IsDirty become false, and values, lists, the edit stack and the error map are unchanged |
| Editable.SetCanUndo | LogoFX.Client.Mvvm.Model/EditableModel.cs:302-315 | CanUndo takes the given value; property values, IsDirty, the undo buffer, the edit stack and the error map are unchanged |
| Editable.BeginEdit | LogoFX.Client.Mvvm.Model/EditableModel.cs:213-218 | pushes one frame holding the model's current values and flags on top of the existing stack; nothing else changes |
| Editable.EndEdit | LogoFX.Client.Mvvm.Model/EditableModel.cs:220-225 | fails exactly when the stack is empty; otherwise pops the top frame into the undo buffer and sets CanUndo, leaving the values alone |
| Editable.CancelEdit | LogoFX.Client.Mvvm.Model/EditableModel.cs:227-231 | fails exactly when the stack is empty; otherwise the top frame is popped and restored onto the model |
| Editable.MakeDirty | LogoFX.Client.Mvvm.Model/EditableModel.cs:289-298 | no-op when already dirty and undoable; otherwise both flags become true and the buffer holds the current values, the lists without their null items, with the dirty flag already set and the CanUndo value from before the call |
| Editable.Undo | LogoFX.Client.Mvvm.Model/EditableModel.cs:177-190 | fails when CanUndo is false or the buffer is null; otherwise the buffer is restored and then IsDirty and CanUndo are cleared |
| Editable.Apply | LogoFX.Client.Mvvm.Model/EditableModel.cs:267-270 | IsDirty and CanUndo become false; the values, lists, ValidationErrors and the now stale undo buffer are kept |
| Editable.CancelApply | LogoFX.Client.Mvvm.Model/EditableModel.cs:272-282 | nothing changes when there is no buffer or undo is already available; otherwise CanUndo and IsDirty become true and nothing else changes |
| EditableProofs.ApplyCommitsBaseline | LogoFX.Client.Mvvm.Model/EditableModel.cs:267-270 | Apply keeps the values, makes Undo unavailable, and the next MakeDirty records exactly the committed values as its undo point, its lists without their null items |
| EditableProofs.TakeRestoreRoundTrip | LogoFX.Client.Mvvm.Model/EditableModel.cs:76-113 | when no captured value is cloned, restoring a snapshot just taken gives back the model with every list stripped of its null items, so it gives back the model unchanged exactly when no list holds a null |
| EditableProofs.RelistCapturedIff | LogoFX.Client.Mvvm.Model/EditableModel.cs:46 | putting captured lists back loses exactly their null items: the lists come back unchanged exactly when none held a null, and their non-null items always come back in order |
| EditableProofs.CancelEditDropsNullItem | LogoFX.Client.Mvvm.Model/EditableModel.cs:227-231 | a list [1, null, 2], BeginEdit, CancelEdit gives [1, 2] |
| EditableProofs.RestoreVerbatimValues | LogoFX.Client.Mvvm.Model/EditableModel.cs:81-105 | without cloning, the restored scalars are exactly the captured ones and each restored list holds exactly the captured items |
| EditableProofs.RestoreRevertsLaterEdits | LogoFX.Client.Mvvm.Model/EditableModel.cs:38-61 | a snapshot does not follow later edits: after changing any property values, lists and flags, restoring it gives back the captured state, the lists as they were at the capture less their null items |
| EditableProofs.RestoreIdempotent | LogoFX.Client.Mvvm.Model/EditableModel.cs:81-113 | restoring the same snapshot twice gives the same state as restoring it once |
| EditableProofs.BeginThenEndRecordsUndoPoint | LogoFX.Client.Mvvm.Model/EditableModel.cs:213-225 | BeginEdit then EndEdit leaves the values alone, makes the snapshot of the starting state the undo buffer and sets CanUndo |
| EditableProofs.CancelEditRevertsEdits | LogoFX.Client.Mvvm.Model/EditableModel.cs:227-231 | after BeginEdit and any property edits, CancelEdit restores the values, flags and validation errors from before BeginEdit, the lists less the null items they then held, and drops the frame |
| EditableProofs.MakeDirtyIdempotent | LogoFX.Client.Mvvm.Model/EditableModel.cs:289-298 | a second MakeDirty changes nothing: there is one undo point |
| EditableProofs.UndoRevertsEditsSinceMakeDirty | LogoFX.Client.Mvvm.Model/EditableModel.cs:177-190 | after a MakeDirty that records a new undo point (the model was not already both dirty and undoable) and any property edits, Undo restores the values from before MakeDirty, the lists less the null items they then held, and leaves the model clean and not undoable |
| EditableProofs.UndoScenario | LogoFX.Client.Mvvm.Model/EditableModel.cs:289-298 | X = 1, MakeDirty, X := 5, Undo succeeds and gives X = 1 with IsDirty false |
| EditableProofs.EditApplyScenario | LogoFX.Client.Mvvm.Model/EditableModel.cs:220-225 | X = 1, BeginEdit, X := 5, EndEdit leaves a buffer with X = 1 and undo available; Apply then keeps X = 5 with both flags false |
| EditableProofs.CancelApplyRearmsStaleBuffer | LogoFX.Client.Mvvm.Model/EditableModel.cs:272-282 | after Apply, CancelApply re-arms the buffer Apply left behind, without checking it against the current values; a following Undo restores that old buffer |
| EditableProofs.SetErrorKeepsMessagesNonEmpty | LogoFX.Client.Mvvm.Model/EditableModel.cs:152-164 | the error map never holds an empty message |
| EditableProofs.HasErrorsIffSomeMessage | LogoFX.Client.Mvvm.Model/EditableModel.cs:284-287 | HasErrors holds exactly when the indexer reports a message for some property |
| EditableProofs.NewIsConsistent | LogoFX.Client.Mvvm.Model/EditableModel.cs:122-131 | a fresh model whose list names match its schema, with an empty stack, no buffer and no errors, satisfies the invariant |
| EditableProofs.RestoreKeepsShape | LogoFX.Client.Mvvm.Model/EditableModel.cs:81-113 | restoring a snapshot taken with the model's own property names keeps the schema and the property names |
| EditableProofs.BeginEditPreservesConsistency | LogoFX.Client.Mvvm.Model/EditableModel.cs:213-218 | BeginEdit keeps the invariant: the pushed frame has the model's property names |
| EditableProofs.EndEditPreservesConsistency | LogoFX.Client.Mvvm.Model/EditableModel.cs:220-225 | EndEdit keeps the invariant: the frame it moves into the buffer fits the model, and CanUndo now has a buffer |
| EditableProofs.CancelEditPreservesConsistency | LogoFX.Client.Mvvm.Model/EditableModel.cs:227-231 | CancelEdit keeps the invariant: restoring the popped frame cannot raise CanUndo without a buffer |
| EditableProofs.UndoPreservesConsistency | LogoFX.Client.Mvvm.Model/EditableModel.cs:177-183 | Undo keeps the invariant: it restores a fitting buffer and clears both flags |
| EditableProofs.StepPreservesConsistency | LogoFX.Client.Mvvm.Model/EditableModel.cs:170-190 | every operation and property write preserves the invariant: list names match the schema, every held snapshot has the model's property names, CanUndo implies a buffer, with no buffer no open frame recorded CanUndo, and no message is empty |
| EditableProofs.RunPreservesConsistency | LogoFX.Client.Mvvm.Model/EditableModel.cs:213-298 | any fault-free sequence of operations preserves the invariant |
| EditableProofs.ConsistentUndoFaultsOnlyWhenUnavailable | LogoFX.Client.Mvvm.Model/EditableModel.cs:177-183 | on a consistent model, Undo fails exactly when CanUndo is false, never on a null buffer |
| EditableProofs.PublicCanUndoSetterArmsMissingBuffer | LogoFX.Client.Mvvm.Model/EditableModel.cs:302-315 | setting CanUndo on a fresh model breaks the invariant, and Undo then hits the null buffer |
| Reconcile.Merge | LogoFX.Client.Mvvm.Model/Extensions.cs:28-60 | a null comparator, creator, source or destination fails, checked in that order, before anything changes; otherwise it succeeds |
| Wrappers.NonNull | LogoFX.Client.Mvvm.Model/Extensions.cs:41-42 | a value is in the result exactly when it occurs non-null in the input, and the result is never longer than the input |
| Wrappers.NonNullAppend | LogoFX.Client.Mvvm.Model/Extensions.cs:41-42 | the filter keeps input order: filtering a concatenation filters each part in place |
| Wrappers.NonNullCounts | LogoFX.Client.Mvvm.Model/Extensions.cs:41-42 | the filter neither drops nor duplicates: each value occurs as often as it occurs non-null in the input |
| Wrappers.NonNullLift | LogoFX.Client.Mvvm.Model/EditableModel.cs:46 | a list with no null item passes the non-null filter unchanged |
| Wrappers.LiftNonNullIff | LogoFX.Client.Mvvm.Model/EditableModel.cs:46 | dropping the null items and re-adding the rest as non-null references is the identity exactly when the list held no null |
| Reconcile.Unmatched | LogoFX.Client.Mvvm.Model/Extensions.cs:44 | an element is in `old` exactly when it is a destination element that no non-null source element matches |
| Reconcile.UnmatchedAppend | LogoFX.Client.Mvvm.Model/Extensions.cs:44 | `old` keeps destination order: the unmatched elements of a concatenation are those of each part, in place |
| Reconcile.UnmatchedCounts | LogoFX.Client.Mvvm.Model/Extensions.cs:44 | an unmatched element is kept as often as it occurs in the destination, a matched one not at all |
| Reconcile.RemoveFirst | LogoFX.Client.Mvvm.Model/Extensions.cs:45 | removes exactly one element when the item is present, and changes nothing otherwise |
| Reconcile.RemoveFirstDropsFirstOccurrence | LogoFX.Client.Mvvm.Model/Extensions.cs:45 | the element IList.Remove drops is the first occurrence of the item, and the other elements keep their order |
| Reconcile.RemoveFirstKeepsOthers | LogoFX.Client.Mvvm.Model/Extensions.cs:45 | IList.Remove introduces nothing and keeps every element other than the item |
| Reconcile.RemoveEach | LogoFX.Client.Mvvm.Model/Extensions.cs:45 | the removal loop removes at most one element per listed object and never adds one |
| Reconcile.RemoveEachKeepsUnlisted | LogoFX.Client.Mvvm.Model/Extensions.cs:45 | the removal loop introduces nothing and keeps every null and every element that is not listed for removal |
| Reconcile.FirstMatch | LogoFX.Client.Mvvm.Model/Extensions.cs:49 | the position of the first non-null destination element equivalent to the source element, or none when no element matches |
| Reconcile.Reconcile1 | LogoFX.Client.Mvvm.Model/Extensions.cs:49-58 | with no match, the creator's element is appended; with a match, the destination is unchanged, and a merge call goes only to that first match, only when it is mergeable and not the source object itself |
| Reconcile.ReconcileAll | LogoFX.Client.Mvvm.Model/Extensions.cs:47-59 | the destination only grows, by the factory-made elements in the order they were made |
| MergeProofs.TurnEvents | LogoFX.Client.Mvvm.Model/Extensions.cs:49-58 | at the turn of a source element, the factory is called exactly when no non-null element of the destination as it then stands matches it, including elements appended at earlier turns; otherwise there is no event or a single merge call carrying that element |
| MergeProofs.ReconcileAllTakesTurns | LogoFX.Client.Mvvm.Model/Extensions.cs:47-59 | the source loop takes one turn per non-null source element, in source order, and none for a null element: its result equals the turn-by-turn reference |
| MergeProofs.RemovalIsFilter | LogoFX.Client.Mvvm.Model/Extensions.cs:44-45 | removing each unmatched element in turn equals filtering: nulls and matched elements stay, in order |
| MergeProofs.SurvivorsLength | LogoFX.Client.Mvvm.Model/Extensions.cs:44-45 | the removal phase removes exactly one element per unmatched element |
| MergeProofs.MergeUnfolds | LogoFX.Client.Mvvm.Model/Extensions.cs:41-59 | a merge is the removal phase's survivors followed by the reconciliation, with the removals first in the trace |
| MergeProofs.MergeShape | LogoFX.Client.Mvvm.Model/Extensions.cs:41-59 | the trace starts with one removal per unmatched element; the final list is the survivors followed by the factory-made elements; its length follows from the two |
| MergeProofs.MergeKeepsMatchedRemovesUnmatched | LogoFX.Client.Mvvm.Model/Extensions.cs:44-51 | nulls and matched elements survive with their identity; an unmatched element is gone unless the factory produced it again |
| MergeProofs.MergedEventsAreSound | LogoFX.Client.Mvvm.Model/Extensions.cs:47-58 | every merge call goes to an element that is mergeable, is not the source object itself, and is equivalent to it |
| MergeProofs.ReconcileAllCovers | LogoFX.Client.Mvvm.Model/Extensions.cs:47-51 | with a factory whose products match their source, every non-null source element has a match afterwards |
| MergeProofs.MadeElementsMatchSource | LogoFX.Client.Mvvm.Model/Extensions.cs:50-51 | with such a factory, every appended element is non-null and matches some source element |
| MergeProofs.ReconcileAllAppendsNothingWhenCovered | LogoFX.Client.Mvvm.Model/Extensions.cs:47-51 | when every source element already has a match, reconciliation appends nothing |
| MergeProofs.MergedElementsAllMatch | LogoFX.Client.Mvvm.Model/Extensions.cs:44-51 | with such a factory, every non-null element after a merge matches some source element |
| MergeProofs.MergeCoversSource | LogoFX.Client.Mvvm.Model/Extensions.cs:47-51 | with such a factory, every non-null source element has a match after a merge |
| MergeProofs.MergeSettles | LogoFX.Client.Mvvm.Model/Extensions.cs:28-60 | with such a factory, merging the same source again removes and adds nothing |
| MergeProofs.MergeAddsCreated | LogoFX.Client.Mvvm.Model/Extensions.cs:49-51 | merging one source element into an empty destination appends exactly one factory-made element |
| MergeProofs.MergeRemovesUnmatchedElement | LogoFX.Client.Mvvm.Model/Extensions.cs:44-45 | with destination [1, 2] and a source matching only 2, element 1 is removed and element 2 stays as the same object |
| MergeProofs.MergeUpdatesInPlace | LogoFX.Client.Mvvm.Model/Extensions.cs:49-58 | a matched mergeable element keeps its identity and receives one merge call; nothing is added or removed |
| EnumerableExtensions.ForEach | LogoFX.Core/EnumerableExtensions.cs:75-89 | null input fails before any action; otherwise the action runs once per element in order, and the input itself is returned |
| EnumerableExtensions.ForEachIndexed | LogoFX.Core/EnumerableExtensions.cs:97-111 | as ForEach, the action receiving each element with its position 0, 1, 2, ... |
| EnumerableExtensions.ForEachByOne | LogoFX.Core/EnumerableExtensions.cs:15-29 | nothing happens before the first MoveNext, which fails on null input; otherwise each element is acted on just before it is yielded, for as many elements as were pulled |
| EnumerableExtensions.ForEachByOneIndexed | LogoFX.Core/EnumerableExtensions.cs:37-52 | as ForEachByOne, the action receiving each element with its position |
| EnumerableExtensions.ByOneYieldsPrefix | LogoFX.Core/EnumerableExtensions.cs:37-52 | a lazy enumeration yields exactly the first elements of the input, in order |
| EnumerableExtensions.ForEachByOneYieldsInput | LogoFX.Core/EnumerableExtensions.cs:15-29 | enumerated to the end, ForEachByOne yields its input unchanged |
| EnumerableExtensions.ByOneActsOnPrefix | LogoFX.Core/EnumerableExtensions.cs:37-52 | a lazy enumeration runs the action on exactly the first elements pulled, in order, each with its own position |
| EnumerableExtensions.ForEachByOneActsLikeForEach | LogoFX.Core/EnumerableExtensions.cs:37-52 | enumerated to the end, the lazy indexed overload performs the same actions, in the same order and with the same indices, as the eager indexed ForEach |
| EnumerableExtensions.ForEachRange | LogoFX.Core/EnumerableExtensions.cs:122-127 | null input fails at once; otherwise the indexed action runs over the selection as the code computes it, with indices restarting at 0, and that selection is returned; for a non-negative start and a count that fits in 32 bits it is positions start..end, and from 0 to int.MaxValue the action runs on nothing |
| EnumerableExtensions.ForEachByOneRange | LogoFX.Core/EnumerableExtensions.cs:62-67 | null input fails at once, before any MoveNext; otherwise the lazy indexed enumeration runs over the selection as the code computes it, yielding the pulled prefix of positions start..end when the count fits in 32 bits, and nothing from 0 to int.MaxValue |
| EnumerableExtensions.NullCheckLazyVersusEager | LogoFX.Core/EnumerableExtensions.cs:62-67 | never enumerated, the indexed lazy overload has not failed on null input, while the ranged one already has |
| EnumerableExtensions.RangeAsWritten | LogoFX.Core/EnumerableExtensions.cs:124-125 | a contiguous run of the input starting at position start (at 0 for a negative start), as long as the count `end - start + 1` wrapped to 32 bits allows, and empty when that count is not positive |
| EnumerableExtensions.RangeAsWrittenIsPositions | LogoFX.Core/EnumerableExtensions.cs:124-125 | for a non-negative start and a count that fits in 32 bits, the code as written selects exactly the existing positions start..end |
| EnumerableExtensions.RangeIsPositions | LogoFX.Core/EnumerableExtensions.cs:124-125 | for a non-negative start the range is exactly the existing positions start..end, empty when end < start |
| EnumerableExtensions.RangeAsWrittenAgreesWithoutOverflow | LogoFX.Core/EnumerableExtensions.cs:124-125 | whenever `end - start + 1` fits in 32 bits, the code as written selects that same range |
| EnumerableExtensions.RangeOverflowSelectsNothing | LogoFX.Core/EnumerableExtensions.cs:124-125 | from 0 to int.MaxValue the 32-bit count wraps to int.MinValue and the code as written selects nothing, where the whole sequence is meant |
| ViewLocation.IndexOf | LogoFX.Client.Bootstrapping/BootstrapperContainerBase.cs:67-69 | the first position of the character, or -1 exactly when it does not occur |
| ViewLocation.StripModel | LogoFX.Client.Bootstrapping/BootstrapperContainerBase.cs:70 | Replace deletes whole five-character occurrences only: the result is no longer than the input, shorter by a multiple of five, and uses only the input's characters |
| ViewLocation.BaseViewName | LogoFX.Client.Bootstrapping/BootstrapperContainerBase.cs:67-70 | the view name before the context is the full name with "Model" deleted when it has no generic marker '`', and otherwise the part before the first '`' with "Model" deleted; it never contains '`', is never longer than the full name, and uses only its characters |
| ViewLocation.ViewTypeName | LogoFX.Client.Bootstrapping/BootstrapperContainerBase.cs:67-76 | without a context the result is the base name; with context C it fails exactly when the base name has fewer than four characters, and otherwise it is the base name without its last four characters, then "." and C |
| ViewLocation.StripModelKeepsCleanName | LogoFX.Client.Bootstrapping/BootstrapperContainerBase.cs:70 | Replace("Model", "") leaves a name without "Model" unchanged |
| ViewLocation.StripModelSplits | LogoFX.Client.Bootstrapping/BootstrapperContainerBase.cs:70 | each occurrence of "Model" is deleted and the text on either side is processed independently |
| ViewLocation.StripModelIsSinglePass | LogoFX.Client.Bootstrapping/BootstrapperContainerBase.cs:70 | Replace makes one pass: "MoModeldel" becomes "Model" |
| ViewLocation.GenericArityIgnored | LogoFX.Client.Bootstrapping/BootstrapperContainerBase.cs:67-69 | a generic type's arity marker and type arguments play no part in the view name |
| ViewLocation.ViewNameConvention | LogoFX.Client.Bootstrapping/BootstrapperContainerBase.cs:67-76 | the view for `N.ViewModels.XViewModel` is `N.Views.XView`, and with context C it is `N.Views.X.C` |
| ViewLocation.ContextNeedsFourCharacters | LogoFX.Client.Bootstrapping/BootstrapperContainerBase.cs:72-76 | without a context the name never fails; with one it fails exactly when the base name is shorter than four characters |
| ViewLocation.FirstWithFullName | LogoFX.Client.Bootstrapping/BootstrapperContainerBase.cs:81-84 | the first type in scan order with the full name, or none when no type has it |
| ViewLocation.LocateTypeForModelType | LogoFX.Client.Bootstrapping/BootstrapperContainerBase.cs:78-87 | a cached name, even one cached as null, is answered from the cache without scanning; otherwise the first matching type is found and cached under the name |
| ViewLocation.LookupIsMemoised | LogoFX.Client.Bootstrapping/BootstrapperContainerBase.cs:78-87 | a second lookup for the same model type gives the first answer without scanning, even after the assemblies' types change |
| ViewLocation.RegisteredViewModels | LogoFX.Client.Bootstrapping/BootstrapperContainerBase.cs:170-179 | a type is registered exactly when it is not the root view model, its name ends with "ViewModel", its namespace is set and ends with "ViewModels", and it implements INotifyPropertyChanged |
| ViewLocation.SuffixImpliesNonBlank | LogoFX.Client.Bootstrapping/BootstrapperContainerBase.cs:175 | a namespace ending with "ViewModels" is never blank, so the blank test adds nothing to the suffix test |

## Left out

- Change notifications (`NotifyOfPropertyChange`, `OnPropertyChanged`, `NotifyOfErrorsChanged`) and the overridable OnBeginEdit, OnEndEdit and OnCancelEdit hooks: they only publish events or call user code.
- Property setters that call MakeDirty while Restore writes values back. Restore writes fields directly here.
- The object identity of the `ValidationErrors` value: a snapshot shares the object with the live model, so a later in-place change to it would show up in the snapshot. The model treats the value as immutable.
- The object identity of captured property values and list items: a snapshot holds references to them (EditableModel.cs lines 46 and 50-51), and Restore writes those references back (lines 91 and 103). An in-place change to such an object after the snapshot shows up in the snapshot, so Restore, CancelEdit and Undo do not revert it. Values are immutable here, so the model reverts reassignments only.
- EditableProofs.RestoreRevertsLaterEdits: covers reassigned properties, lists and flags only, not in-place changes to a captured object. With cloning it holds up to the clone's own equality, because each Restore installs a new clone object.
- EditableProofs.RestoreIdempotent: with cloning, two restores install two distinct clone objects. The clone function here returns equal values, so the property holds up to the clone's own equality only.
- Editable.ErrorFor: a null column name is not modelled. `_errors.ContainsKey(null)` throws ArgumentNullException (EditableModel.cs line 200); column names are plain strings here.
- A null `propertyName` in SetError (`Dictionary.Remove(null)` throws). Property names are plain strings here.
- An `[EditableList]` property whose value is null or is not an `IList`. The schema assumes every list property holds a list. The code throws on a null value and captures a non-list value like any other property.
- The `Debug.Assert(FullName != null)` in the view lookup and the `TextBlock` placeholder view: view objects are not modelled.
- Editable.Restore: an `ICloneable<object>.Clone()` that returns null is not modelled. The clone function yields a value or reports "not cloneable", so a restored `[EditableSingle]` property (EditableModel.cs line 87) or a re-added list item (line 101) is never a null produced by Clone().
- Editable.Undo: models the Debug build, where `Debug.Assert(CanUndo)` fails. In a Release build the assert is compiled out: Undo restores the buffer even when CanUndo is false, and throws a NullReferenceException on a null buffer.
- EditableProofs.TakeRestoreRoundTrip: holds only when no captured value is cloned. With cloning, Restore installs fresh clones, equal only up to the clone's own equality.
- Reconcile.Merge: element equality is object identity. A destination type that overrides `Equals` would make `IList.Remove` remove a different, equal element.
- Reconcile.Merge: the copies taken for thread safety, and aliasing between destination and source, are not modelled; the lists are values here. What IMergeable.Merge does inside an element is recorded as an event only.
- MergeProofs.MergeSettles: assumes the comparator is a pure function, so a call to IMergeable.Merge does not change which source element an element matches.
- EnumerableExtensions.ForEach: a null `action` is not modelled, here or in the indexed and ranged overloads. The source throws NullReferenceException when it calls the action on the first element, and does not throw for empty input (EnumerableExtensions.cs lines 85 and 108).
- EnumerableExtensions.ForEachByOne: a null `action` is not modelled, here or in the indexed and ranged overloads. The source throws NullReferenceException at the first MoveNext that finds an element (EnumerableExtensions.cs lines 25 and 48).
- EnumerableExtensions.ForEachIndexed: the index is an unbounded integer. The source's `index++` would wrap after int.MaxValue elements.
- EnumerableExtensions.ForEachByOneIndexed: the index is an unbounded integer. The source's `index++` (EnumerableExtensions.cs line 48) would wrap to int.MinValue after int.MaxValue pulls. The same holds for ByOneActsOnPrefix and for the indices of the ranged lazy overload.
- EnumerableExtensions.RangeIsPositions: requires a non-negative start. Enumerable.Skip treats a negative start as 0, and the count `end - start + 1` then still uses the negative start.
- ViewLocation.ViewNameConvention: stated for namespace and class names that themselves contain neither "Model" nor '`'.
- ViewLocation.IndexOf: an ordinal search. The source's `IndexOf(string)` and `EndsWith(string)` are culture-sensitive.
- Assembly scanning (`AssemblySource`, `GetExportedTypes`, `GetTypes`): replaced by a sequence of type descriptions in scan order. `GetInterface` is matched by simple name.
- The IoC container glue: registration calls, `GetInstance`, `BuildUp`, `SelectAssemblies`, the module loader and `Dispatch` initialisation. These only forward to the container.
- The remaining files in the repository (navigation bootstrapper, localisation assembly collection, interface-only files) are not part of this model.

## Findings

| source | as written | input that shows it | evidently intended | confidence | as-written member | corrected member |
|---|---|---|---|---|---|---|
| LogoFX.Core/EnumerableExtensions.cs:125 | `Take(end - start + 1)` computes the count in unchecked 32-bit arithmetic | start = 0, end = int.MaxValue: the count wraps to int.MinValue and ForEach acts on no element | act on every element from position start to end, here the whole sequence | not executed | EnumerableExtensions.ForEachRange | EnumerableExtensions.RangeIsPositions |
| LogoFX.Core/EnumerableExtensions.cs:65 | the ranged ForEachByOne computes the same count the same way | start = 0, end = int.MaxValue: the enumeration yields nothing | yield every element from position start to end | not executed | EnumerableExtensions.ForEachByOneRange | EnumerableExtensions.RangeIsPositions |

=== FILE: editable_model.dfy ===
/** The transactional editable model: an object that can capture its own
    writable state in a Snapshot, keep a LIFO stack of snapshots for nested
    begin/end/cancel-edit, keep one undo buffer, track the dirty and
    can-undo flags, and hold a per-property validation-error map.

    Reflection is replaced by an explicit record: `scalars` are the public
    read/write properties, `lists` the [EditableList] properties, and the
    `Schema` carries the attribute metadata ([EditableSingle] names and each
    list's CloneItems flag). Property values have the type parameter `V`;
    the model's `ValidationErrors` collection is the opaque `E`. Whether a
    value is ICloneable is the `clone` parameter: `clone(v) == None` means
    `v` cannot be cloned, `Some(c)` is the clone it produces. A live list
    item may be null (`None`); a snapshot's lists hold no null, because the
    capture copies them through `OfType<object>()`. */
module Editable {
  import opened Wrappers

  /** Attribute metadata of the model's type. `listPolicy` maps every
      [EditableList] property to its CloneItems flag. */
  datatype Schema = Schema(singles: set<string>, listPolicy: map<string, bool>)

  /** A point-in-time capture. `canUndo` is here because CanUndo has a public
      setter and is therefore one of the scalar properties reflection finds;
      IsDirty has a private setter and is captured on its own. */
  datatype Snapshot<V, E> = Snapshot(
    scalars: map<string, V>,
    lists: map<string, seq<V>>,
    canUndo: bool,
    validationErrors: E,
    isDirty: bool)

  /** The live model. The top of `editStack` is its last element. `errors`
      is the private error map behind SetError, the indexer and HasErrors;
      snapshots do not capture it. */
  datatype Model<V, E> = Model(
    schema: Schema,
    scalars: map<string, V>,
    lists: map<string, seq<Option<V>>>,
    canUndo: bool,
    isDirty: bool,
    validationErrors: E,
    errors: map<string, string>,
    editStack: seq<Snapshot<V, E>>,
    undoBuffer: Option<Snapshot<V, E>>)

  /** Faults the source raises: Stack.Pop on an empty stack, the
      Debug.Assert(CanUndo) in RestoreFromUndoBuffer, and a null undo buffer
      dereferenced when CanUndo was set to true from outside. */
  datatype Fault = EditStackEmpty | UndoUnavailable | UndoBufferNull

  /** A freshly constructed model: clean, nothing to undo, no open edits. */
  function New<V, E>(schema: Schema, scalars: map<string, V>, lists: map<string, seq<Option<V>>>, validationErrors: E): Model<V, E>
  {
    Model(schema, scalars, lists, false, false, validationErrors, map[], [], None)
  }

  // ---------------------------------------------------------------- Snapshot

  /** Whether Restore clones the items of list property `name`. */
  predicate CloneItems(schema: Schema, name: string)
  {
    name in schema.listPolicy && schema.listPolicy[name]
  }

  /** The value Restore writes into scalar property `name`: a clone when the
      property is [EditableSingle] and the value is cloneable. */
  function RestoredScalar<V>(schema: Schema, name: string, v: V, clone: V -> Option<V>): V
  {
    if name in schema.singles && clone(v).Some? then clone(v).value else v
  }

  /** One list item as Restore re-adds it under CloneItems. */
  function RestoredItem<V>(v: V, clone: V -> Option<V>): V
  {
    if clone(v).Some? then clone(v).value else v
  }

  /** The contents Restore puts back into list property `name`. */
  function RestoredList<V>(schema: Schema, name: string, items: seq<V>, clone: V -> Option<V>): (r: seq<V>)
    ensures |r| == |items|
    ensures !CloneItems(schema, name) ==> r == items
    ensures CloneItems(schema, name) ==> forall i :: 0 <= i < |items| ==> r[i] == RestoredItem(items[i], clone)
  {
    if CloneItems(schema, name) then seq(|items|, i requires 0 <= i < |items| => RestoredItem(items[i], clone))
    else items
  }

  /** The captured scalars as Restore writes them back. */
  function RestoredScalars<V>(schema: Schema, captured: map<string, V>, clone: V -> Option<V>): (r: map<string, V>)
    ensures r.Keys == captured.Keys
    ensures forall k :: k in captured ==> r[k] == RestoredScalar(schema, k, captured[k], clone)
  {
    map k | k in captured :: RestoredScalar(schema, k, captured[k], clone)
  }

  /** The captured lists as Restore repopulates the live ones: every item
      it adds is non-null. */
  function RestoredLists<V>(schema: Schema, captured: map<string, seq<V>>, clone: V -> Option<V>): (r: map<string, seq<Option<V>>>)
    ensures r.Keys == captured.Keys
    ensures forall k :: k in captured ==> r[k] == Lift(RestoredList(schema, k, captured[k], clone))
  {
    map k | k in captured :: Lift(RestoredList(schema, k, captured[k], clone))
  }

  /** The lists as the capture copies them: each through
      `OfType<object>()`, which skips the null items. */
  function CapturedLists<V(!new)>(lists: map<string, seq<Option<V>>>): (r: map<string, seq<V>>)
    ensures r.Keys == lists.Keys
    ensures forall k :: k in lists ==> r[k] == NonNull(lists[k])
  {
    map k | k in lists :: NonNull(lists[k])
  }

  /** Snapshot.Take / the Snapshot constructor. A Dafny sequence is a value,
      so the captured lists are independent of the live ones by construction. */
  function Take<V(!new), E>(m: Model<V, E>): (r: Snapshot<V, E>)
    ensures r.scalars == m.scalars
    ensures r.lists.Keys == m.lists.Keys
    ensures forall k, x :: k in m.lists ==> (x in r.lists[k] <==> Some(x) in m.lists[k])
    ensures forall k :: k in m.lists ==> |r.lists[k]| <= |m.lists[k]|
    ensures r.canUndo == m.canUndo && r.isDirty == m.isDirty && r.validationErrors == m.validationErrors
  {
    Snapshot(m.scalars, CapturedLists(m.lists), m.canUndo, m.validationErrors, m.isDirty)
  }

  /** Snapshot.Restore: write every captured scalar back (cloning
      [EditableSingle] cloneable values), clear each captured list and re-add
      its captured items (cloning them under CloneItems), then put back the
      validation errors and the dirty flag. The edit stack, the undo buffer
      and the error map are not touched. */
  function Restore<V, E>(s: Snapshot<V, E>, m: Model<V, E>, clone: V -> Option<V>): (r: Model<V, E>)
    ensures r.scalars.Keys == m.scalars.Keys + s.scalars.Keys
    ensures forall k :: k in s.scalars ==> r.scalars[k] == RestoredScalar(m.schema, k, s.scalars[k], clone)
    ensures forall k :: k in m.scalars && k !in s.scalars ==> r.scalars[k] == m.scalars[k]
    ensures r.lists.Keys == m.lists.Keys + s.lists.Keys
    ensures forall k :: k in s.lists ==> r.lists[k] == Lift(RestoredList(m.schema, k, s.lists[k], clone))
    ensures forall k :: k in m.lists && k !in s.lists ==> r.lists[k] == m.lists[k]
    ensures r.canUndo == s.canUndo && r.isDirty == s.isDirty && r.validationErrors == s.validationErrors
    ensures r.schema == m.schema && r.errors == m.errors
    ensures r.editStack == m.editStack && r.undoBuffer == m.undoBuffer
  {
    m.(scalars := m.scalars + RestoredScalars(m.schema, s.scalars, clone),
       lists := m.lists + RestoredLists(m.schema, s.lists, clone),
       canUndo := s.canUndo,
       validationErrors := s.validationErrors,
       isDirty := s.isDirty)
  }

  // ----------------------------------------------------------- Error surface

  /** String.IsNullOrEmpty on a possibly-null message. */
  predicate IsNullOrEmpty(message: Option<string>)
  {
    message.None? || message.value == ""
  }

  /** The indexer this[columnName]: the recorded message, or "" when none. */
  function ErrorFor<V, E>(m: Model<V, E>, column: string): (r: string)
    ensures column in m.errors ==> r == m.errors[column]
    ensures column !in m.errors ==> r == ""
  {
    if column in m.errors then m.errors[column] else ""
  }

  /** HasErrors: the error map has at least one entry. */
  function HasErrors<V, E>(m: Model<V, E>): (r: bool)
    ensures r <==> exists k :: k in m.errors
  {
    |m.errors| > 0
  }

  /** SetError: a null or empty message clears the property's entry, any
      other message records it; nothing else changes. */
  function SetError<V, E>(m: Model<V, E>, message: Option<string>, property: string): (r: Model<V, E>)
    ensures IsNullOrEmpty(message) ==> ErrorFor(r, property) == "" && property !in r.errors
    ensures !IsNullOrEmpty(message) ==> ErrorFor(r, property) == message.value
    ensures forall q :: q != property ==> ErrorFor(r, q) == ErrorFor(m, q)
    ensures r.errors.Keys <= m.errors.Keys + {property}
    ensures r == m.(errors := r.errors)
  {
    if IsNullOrEmpty(message) then m.(errors := m.errors - {property})
    else m.(errors := m.errors[property := message.value])
  }

  // --------------------------------------------------------- Flags and undo

  /** ClearDirty: both flags drop; values and the buffer are kept. */
  function ClearDirty<V, E>(m: Model<V, E>): (r: Model<V, E>)
    ensures !r.isDirty && !r.canUndo
    ensures r.scalars == m.scalars && r.lists == m.lists && r.undoBuffer == m.undoBuffer
    ensures r == m.(isDirty := false, canUndo := false)
  {
    m.(isDirty := false, canUndo := false)
  }

  /** SetUndoBuffer: install `s` as the undo buffer and enable undo. */
  function SetUndoBuffer<V, E>(m: Model<V, E>, s: Snapshot<V, E>): (r: Model<V, E>)
    ensures r.undoBuffer == Some(s) && r.canUndo
    ensures r.scalars == m.scalars && r.lists == m.lists && r.isDirty == m.isDirty
    ensures r.validationErrors == m.validationErrors && r.editStack == m.editStack && r.errors == m.errors
  {
    m.(undoBuffer := Some(s), canUndo := true)
  }

  /** ClearUndoBuffer: despite its name it keeps the buffer and only clears
      the flags (CanUndo := false, then ClearDirty). */
  function ClearUndoBuffer<V, E>(m: Model<V, E>): (r: Model<V, E>)
    ensures !r.canUndo && !r.isDirty
    ensures r.undoBuffer == m.undoBuffer
    ensures r.scalars == m.scalars && r.lists == m.lists && r.validationErrors == m.validationErrors
    ensures r.editStack == m.editStack && r.errors == m.errors
  {
    ClearDirty(m.(canUndo := false))
  }

  /** The public CanUndo setter. */
  function SetCanUndo<V, E>(m: Model<V, E>, value: bool): (r: Model<V, E>)
    ensures r.canUndo == value
    ensures r.scalars == m.scalars && r.lists == m.lists && r.isDirty == m.isDirty
    ensures r.undoBuffer == m.undoBuffer && r.editStack == m.editStack && r.errors == m.errors
  {
    m.(canUndo := value)
  }

  // ------------------------------------------------------- IEditableObject

  /** BeginEdit: push one snapshot of the current state. */
  function BeginEdit<V(!new), E>(m: Model<V, E>): (r: Model<V, E>)
    ensures |r.editStack| == |m.editStack| + 1
    ensures r.editStack[..|m.editStack|] == m.editStack
    ensures r.editStack[|m.editStack|] == Take(m)
    ensures r == m.(editStack := r.editStack)
  {
    m.(editStack := m.editStack + [Take(m)])
  }

  /** EndEdit: pop the top snapshot into the undo buffer and enable undo;
      an empty stack is a fault. */
  function EndEdit<V, E>(m: Model<V, E>): (r: Result<Model<V, E>, Fault>)
    ensures r.Failure? <==> m.editStack == []
    ensures r.Failure? ==> r.error == EditStackEmpty
    ensures r.Success? ==>
      var n := |m.editStack|;
      && r.value.editStack == m.editStack[..n - 1]
      && r.value.undoBuffer == Some(m.editStack[n - 1])
      && r.value.canUndo
      && r.value == m.(editStack := r.value.editStack, undoBuffer := r.value.undoBuffer, canUndo := true)
  {
    if m.editStack == [] then Failure(EditStackEmpty)
    else
      var n := |m.editStack|;
      Success(SetUndoBuffer(m.(editStack := m.editStack[..n - 1]), m.editStack[n - 1]))
  }

  /** CancelEdit: pop the top snapshot and restore it; an empty stack is a
      fault. */
  function CancelEdit<V, E>(m: Model<V, E>, clone: V -> Option<V>): (r: Result<Model<V, E>, Fault>)
    ensures r.Failure? <==> m.editStack == []
    ensures r.Failure? ==> r.error == EditStackEmpty
    ensures r.Success? ==>
      var n := |m.editStack|;
      && r.value.editStack == m.editStack[..n - 1]
      && r.value == Restore(m.editStack[n - 1], m.(editStack := m.editStack[..n - 1]), clone)
  {
    if m.editStack == [] then Failure(EditStackEmpty)
    else
      var n := |m.editStack|;
      Success(Restore(m.editStack[n - 1], m.(editStack := m.editStack[..n - 1]), clone))
  }

  // -------------------------------------------------------- IEditableModel

  /** MakeDirty: a no-op when already dirty with undo available; otherwise
      set IsDirty and THEN snapshot, so the new buffer records dirty = true
      (and the CanUndo value from before the call). */
  function MakeDirty<V(!new), E>(m: Model<V, E>): (r: Model<V, E>)
    ensures m.isDirty && m.canUndo ==> r == m
    ensures !(m.isDirty && m.canUndo) ==>
      && r.isDirty && r.canUndo
      && r.undoBuffer == Some(Snapshot(m.scalars, CapturedLists(m.lists), m.canUndo, m.validationErrors, true))
      && r == m.(isDirty := true, canUndo := true, undoBuffer := r.undoBuffer)
  {
    if m.isDirty && m.canUndo then m
    else
      var dirty := m.(isDirty := true);
      SetUndoBuffer(dirty, Take(dirty))
  }

  /** Undo (RestoreFromUndoBuffer): requires CanUndo; restores the buffer,
      then clears both flags. The buffer itself is kept. */
  function Undo<V, E>(m: Model<V, E>, clone: V -> Option<V>): (r: Result<Model<V, E>, Fault>)
    ensures !m.canUndo ==> r == Failure(UndoUnavailable)
    ensures m.canUndo && m.undoBuffer.None? ==> r == Failure(UndoBufferNull)
    ensures m.canUndo && m.undoBuffer.Some? ==>
      && r.Success?
      && !r.value.isDirty && !r.value.canUndo
      && r.value.undoBuffer == m.undoBuffer
      && r.value == Restore(m.undoBuffer.value, m, clone).(isDirty := false, canUndo := false)
  {
    if !m.canUndo then Failure(UndoUnavailable)
    else if m.undoBuffer.None? then Failure(UndoBufferNull)
    else Success(ClearUndoBuffer(Restore(m.undoBuffer.value, m, clone)))
  }

  /** Apply: accept the current values as the baseline. Only the flags
      change; the buffer reference survives. */
  function Apply<V, E>(m: Model<V, E>): (r: Model<V, E>)
    ensures !r.isDirty && !r.canUndo
    ensures r.undoBuffer == m.undoBuffer
    ensures r.scalars == m.scalars && r.lists == m.lists && r.validationErrors == m.validationErrors
    ensures r == m.(isDirty := false, canUndo := false)
  {
    ClearUndoBuffer(m)
  }

  /** CancelApply: a no-op without a buffer or when undo is already
      available; otherwise re-enable undo on the retained buffer and mark
      the model dirty. */
  function CancelApply<V, E>(m: Model<V, E>): (r: Model<V, E>)
    ensures m.undoBuffer.None? || m.canUndo ==> r == m
    ensures m.undoBuffer.Some? && !m.canUndo ==> r == m.(canUndo := true, isDirty := true)
  {
    if m.undoBuffer.None? || m.canUndo then m
    else m.(canUndo := true, isDirty := true)
  }
}

=== FILE: editable_proofs.dfy ===
/** Properties of the editable model that relate several operations:
    snapshot round-trip, restore idempotence, what undo and cancel-edit
    revert, the make-dirty no-op, the stale buffer cancel-apply re-arms,
    the error surface, and the undo-consistency invariant every operation
    except the public CanUndo setter preserves. */
module EditableProofs {
  import opened Wrappers
  import opened Editable

  /** Restoring `s` onto a model with `schema` clones nothing: no captured
      [EditableSingle] value and no item of a CloneItems list is cloneable. */
  ghost predicate RestoresVerbatim<V, E>(s: Snapshot<V, E>, schema: Schema, clone: V -> Option<V>)
  {
    && (forall k :: k in s.scalars && k in schema.singles ==> clone(s.scalars[k]).None?)
    && (forall k, i :: k in s.lists && CloneItems(schema, k) && 0 <= i < |s.lists[k]| ==> clone(s.lists[k][i]).None?)
  }

  /** Two states of the same model object: same type metadata and the same
      property names. */
  ghost predicate SameShape<V, E>(a: Model<V, E>, b: Model<V, E>)
  {
    a.schema == b.schema && a.scalars.Keys == b.scalars.Keys && a.lists.Keys == b.lists.Keys
  }

  /** Captured lists put back as live lists: every item non-null. */
  ghost function Relisted<V>(captured: map<string, seq<V>>): (r: map<string, seq<Option<V>>>)
    ensures r.Keys == captured.Keys
  {
    map k | k in captured :: Lift(captured[k])
  }

  /** No live list holds a null item. */
  ghost predicate NoNullItems<V>(lists: map<string, seq<Option<V>>>)
  {
    forall k :: k in lists ==> None !in lists[k]
  }

  /** Capturing the lists and putting them back loses exactly their null
      items: the lists come back unchanged exactly when none held a null. */
  lemma {:induction false} RelistCapturedIff<V(!new)>(lists: map<string, seq<Option<V>>>)
    ensures Relisted(CapturedLists(lists)) == lists <==> NoNullItems(lists)
    ensures forall k :: k in lists ==> NonNull(Relisted(CapturedLists(lists))[k]) == NonNull(lists[k])
  {
    var back := Relisted(CapturedLists(lists));
    forall k | k in lists
      ensures back[k] == lists[k] <==> None !in lists[k]
      ensures NonNull(back[k]) == NonNull(lists[k])
    {
      LiftNonNullIff(lists[k]);
      NonNullLift(NonNull(lists[k]));
    }
    if NoNullItems(lists) {
      assert back == lists;
    }
  }

  /** When nothing is cloned, restoring a snapshot writes back exactly the
      captured scalars and lists. */
  lemma {:induction false} RestoreVerbatimValues<V, E>(s: Snapshot<V, E>, m: Model<V, E>, clone: V -> Option<V>)
    requires RestoresVerbatim(s, m.schema, clone)
    requires m.scalars.Keys <= s.scalars.Keys && m.lists.Keys <= s.lists.Keys
    ensures Restore(s, m, clone).scalars == s.scalars
    ensures Restore(s, m, clone).lists == Relisted(s.lists)
  {
    var r := Restore(s, m, clone);
    assert r.scalars.Keys == s.scalars.Keys;
    forall k | k in s.scalars
      ensures r.scalars[k] == s.scalars[k]
    {
    }
    assert r.lists.Keys == s.lists.Keys;
    forall k | k in s.lists
      ensures r.lists[k] == Relisted(s.lists)[k]
    {
      if CloneItems(m.schema, k) {
        assert RestoredList(m.schema, k, s.lists[k], clone) == s.lists[k];
      }
    }
  }

  /** Round-trip: taking a snapshot and immediately restoring it (when the
      restore clones nothing) leaves the model unchanged except that every
      list loses its null items; so it is the identity exactly when no list
      holds a null. */
  lemma {:induction false} TakeRestoreRoundTrip<V(!new), E>(m: Model<V, E>, clone: V -> Option<V>)
    requires RestoresVerbatim(Take(m), m.schema, clone)
    ensures Restore(Take(m), m, clone) == m.(lists := Relisted(CapturedLists(m.lists)))
    ensures Restore(Take(m), m, clone) == m <==> NoNullItems(m.lists)
  {
    RestoreVerbatimValues(Take(m), m, clone);
    RelistCapturedIff(m.lists);
  }

  /** A snapshot is independent of later changes to the live model: whatever
      happened to the properties, the flags and the validation errors after
      Take, restoring the snapshot puts back what was captured: the lists as
      they were at Take without their null items. */
  lemma {:induction false} RestoreRevertsLaterEdits<V(!new), E>(m: Model<V, E>, later: Model<V, E>, clone: V -> Option<V>)
    requires SameShape(later, m)
    requires RestoresVerbatim(Take(m), m.schema, clone)
    ensures var r := Restore(Take(m), later, clone);
      && r.scalars == m.scalars && r.lists == Relisted(CapturedLists(m.lists))
      && r.canUndo == m.canUndo && r.isDirty == m.isDirty && r.validationErrors == m.validationErrors
      && r.editStack == later.editStack && r.undoBuffer == later.undoBuffer && r.errors == later.errors
  {
    RestoreVerbatimValues(Take(m), later, clone);
  }

  /** Restoring the same snapshot twice gives the same state as restoring it
      once, whatever the clone policy. */
  lemma {:induction false} RestoreIdempotent<V, E>(s: Snapshot<V, E>, m: Model<V, E>, clone: V -> Option<V>)
    ensures Restore(s, Restore(s, m, clone), clone) == Restore(s, m, clone)
  {
    var once := Restore(s, m, clone);
    var twice := Restore(s, once, clone);
    assert twice.scalars.Keys == once.scalars.Keys;
    assert forall k :: k in twice.scalars ==> twice.scalars[k] == once.scalars[k];
    assert twice.scalars == once.scalars;
    assert twice.lists.Keys == once.lists.Keys;
    assert forall k :: k in twice.lists ==> twice.lists[k] == once.lists[k];
    assert twice.lists == once.lists;
  }

  /** BeginEdit followed by EndEdit leaves the values alone and installs the
      pre-edit snapshot as the undo point. */
  lemma {:induction false} BeginThenEndRecordsUndoPoint<V(!new), E>(m: Model<V, E>)
    ensures EndEdit(BeginEdit(m)) == Success(m.(undoBuffer := Some(Take(m)), canUndo := true))
  {
    var b := BeginEdit(m);
    assert b.editStack[..|m.editStack|] == m.editStack;
  }

  /** Cancel-edit reverts every captured property, flag and the validation
      errors to their values at the matching BeginEdit, however the model was
      edited in between, and closes exactly that frame. Lists come back
      without the null items they held at BeginEdit. The undo buffer and
      the error map are whatever the edits left. */
  lemma {:induction false} CancelEditRevertsEdits<V(!new), E>(m: Model<V, E>, edited: Model<V, E>, clone: V -> Option<V>)
    requires SameShape(edited, m)
    requires edited.editStack == BeginEdit(m).editStack
    requires RestoresVerbatim(Take(m), m.schema, clone)
    ensures CancelEdit(edited, clone).Success?
    ensures var r := CancelEdit(edited, clone).value;
      && r.scalars == m.scalars && r.lists == Relisted(CapturedLists(m.lists))
      && r.canUndo == m.canUndo && r.isDirty == m.isDirty && r.validationErrors == m.validationErrors
      && r.editStack == m.editStack
      && r.undoBuffer == edited.undoBuffer && r.errors == edited.errors
  {
    var n := |edited.editStack|;
    assert edited.editStack[n - 1] == Take(m);
    assert edited.editStack[..n - 1] == m.editStack;
    RestoreRevertsLaterEdits(m, edited.(editStack := m.editStack), clone);
  }

  /** MakeDirty twice in a row creates one undo point: the second call is a
      no-op. */
  lemma {:induction false} MakeDirtyIdempotent<V(!new), E>(m: Model<V, E>)
    ensures MakeDirty(MakeDirty(m)) == MakeDirty(m)
    ensures MakeDirty(m).isDirty && MakeDirty(m).canUndo
  {
  }

  /** Undo after MakeDirty reverts every edit made since, except that lists
      lose the null items they held at MakeDirty, and leaves the model clean
      with undo disabled. */
  lemma {:induction false} UndoRevertsEditsSinceMakeDirty<V(!new), E>(m: Model<V, E>, edited: Model<V, E>, clone: V -> Option<V>)
    requires !(m.isDirty && m.canUndo)
    requires SameShape(edited, m)
    requires edited.canUndo && edited.undoBuffer == MakeDirty(m).undoBuffer
    requires RestoresVerbatim(Take(m), m.schema, clone)
    ensures Undo(edited, clone).Success?
    ensures var r := Undo(edited, clone).value;
      && r.scalars == m.scalars && r.lists == Relisted(CapturedLists(m.lists))
      && r.validationErrors == m.validationErrors
      && !r.isDirty && !r.canUndo
  {
    var s := edited.undoBuffer.value;
    assert s == Take(m).(isDirty := true);
    RestoreVerbatimValues(s, edited, clone);
  }

  /** A worked example: X = 1, MakeDirty, X := 5, Undo gives X = 1 and a
      clean model. */
  lemma UndoScenario()
    ensures var m := New(Schema({}, map[]), map["X" := 1], map[], 0);
      var edited := MakeDirty(m).(scalars := map["X" := 5]);
      && Undo(edited, (v: int) => None).Success?
      && Undo(edited, (v: int) => None).value.scalars["X"] == 1
      && !Undo(edited, (v: int) => None).value.isDirty
  {
    var m := New(Schema({}, map[]), map["X" := 1], map[], 0);
    var edited := MakeDirty(m).(scalars := map["X" := 5]);
    assert edited.scalars.Keys == m.scalars.Keys;
    UndoRevertsEditsSinceMakeDirty(m, edited, (v: int) => None);
  }

  /** After Apply, CancelApply re-arms the buffer that was current before
      Apply, without checking it against the values: a following Undo
      restores that old snapshot. */
  lemma {:induction false} CancelApplyRearmsStaleBuffer<V, E>(m: Model<V, E>, clone: V -> Option<V>)
    requires m.undoBuffer.Some?
    ensures var reopened := CancelApply(Apply(m));
      && reopened.canUndo && reopened.isDirty
      && reopened.undoBuffer == m.undoBuffer
      && reopened.scalars == m.scalars
      && Undo(reopened, clone) == Success(Restore(m.undoBuffer.value, m, clone).(isDirty := false, canUndo := false))
  {
  }

  /** Apply commits the current values as the baseline: they are kept, Undo
      is no longer available, and the next MakeDirty records exactly the
      committed values as its undo point, its lists without null items. */
  lemma {:induction false} ApplyCommitsBaseline<V(!new), E>(m: Model<V, E>, clone: V -> Option<V>)
    ensures var a := Apply(m);
      && a.scalars == m.scalars && a.lists == m.lists && a.validationErrors == m.validationErrors
      && Undo(a, clone) == Failure(UndoUnavailable)
      && MakeDirty(a).undoBuffer == Some(Snapshot(m.scalars, CapturedLists(m.lists), false, m.validationErrors, true))
  {
  }

  /** A worked example: an `[EditableList]` list L = [1, null, 2], BeginEdit,
      CancelEdit gives L = [1, 2]: the capture skipped the null item. */
  lemma CancelEditDropsNullItem()
    ensures var m := New(Schema({}, map["L" := false]), map[], map["L" := [Some(1), None, Some(2)]], 0);
      && CancelEdit(BeginEdit(m), (v: int) => None).Success?
      && CancelEdit(BeginEdit(m), (v: int) => None).value.lists["L"] == [Some(1), Some(2)]
  {
    var m := New(Schema({}, map["L" := false]), map[], map["L" := [Some(1), None, Some(2)]], 0);
    var l: seq<Option<int>> := [Some(1), None, Some(2)];
    assert l[1..][1..][1..] == [];
    assert NonNull(l) == [1, 2];
    CancelEditRevertsEdits(m, BeginEdit(m), (v: int) => None);
  }

  /** A worked example: X = 1, BeginEdit, X := 5, EndEdit leaves an undo
      buffer holding X = 1 with undo available; Apply then keeps X = 5 and
      leaves the model clean and not undoable. */
  lemma EditApplyScenario()
    ensures var m := New(Schema({}, map[]), map["X" := 1], map[], 0);
      var ended := EndEdit(BeginEdit(m).(scalars := map["X" := 5]));
      && ended.Success?
      && ended.value.undoBuffer.Some? && ended.value.undoBuffer.value.scalars["X"] == 1
      && ended.value.canUndo
      && Apply(ended.value).scalars["X"] == 5
      && !Apply(ended.value).isDirty && !Apply(ended.value).canUndo
  {
    var m := New(Schema({}, map[]), map["X" := 1], map[], 0);
    var edited := BeginEdit(m).(scalars := map["X" := 5]);
    assert edited.editStack == [Take(m)];
  }

  // ------------------------------------------------------------ Error map

  /** The error map never holds an empty message. */
  ghost predicate MessagesNonEmpty<V, E>(m: Model<V, E>)
  {
    forall p :: p in m.errors ==> m.errors[p] != ""
  }

  /** SetError never stores an empty message. */
  lemma {:induction false} SetErrorKeepsMessagesNonEmpty<V, E>(m: Model<V, E>, message: Option<string>, property: string)
    requires MessagesNonEmpty(m)
    ensures MessagesNonEmpty(SetError(m, message, property))
  {
    var r := SetError(m, message, property);
    forall p | p in r.errors
      ensures r.errors[p] != ""
    {
      if p == property {
        assert !IsNullOrEmpty(message);
      } else {
        assert ErrorFor(r, p) == ErrorFor(m, p);
      }
    }
  }

  /** HasErrors holds exactly when the indexer reports a message for some
      property. */
  lemma {:induction false} HasErrorsIffSomeMessage<V, E>(m: Model<V, E>)
    requires MessagesNonEmpty(m)
    ensures HasErrors(m) <==> exists p :: ErrorFor(m, p) != ""
  {
    if HasErrors(m) {
      var p :| p in m.errors;
      assert ErrorFor(m, p) != "";
    } else {
      assert m.errors == map[];
    }
  }

  // ------------------------------------------------- Undo consistency

  /** A snapshot has the property names of the model it will be restored onto. */
  ghost predicate Fits<V, E>(s: Snapshot<V, E>, m: Model<V, E>)
  {
    s.scalars.Keys == m.scalars.Keys && s.lists.Keys == m.lists.Keys
  }

  /** The invariant: property names agree with the schema and every held
      snapshot fits; CanUndo implies a buffer; with no buffer yet, no open
      frame recorded CanUndo = true (so no restore can turn it on); the error
      map holds no empty message. */
  ghost predicate Consistent<V, E>(m: Model<V, E>)
  {
    && m.lists.Keys == m.schema.listPolicy.Keys
    && m.scalars.Keys !! m.lists.Keys
    && (forall i :: 0 <= i < |m.editStack| ==> Fits(m.editStack[i], m))
    && (m.undoBuffer.Some? ==> Fits(m.undoBuffer.value, m))
    && (m.canUndo ==> m.undoBuffer.Some?)
    && (m.undoBuffer.None? ==> forall i :: 0 <= i < |m.editStack| ==> !m.editStack[i].canUndo)
    && MessagesNonEmpty(m)
  }

  /** Everything that can happen to a model: its own operations and the
      application writing a property (a subclass setter). */
  datatype Op<V, E> =
    | BeginEditOp
    | EndEditOp
    | CancelEditOp
    | MakeDirtyOp
    | UndoOp
    | ApplyOp
    | CancelApplyOp
    | ClearDirtyOp
    | SetErrorOp(message: Option<string>, property: string)
    | WriteScalar(name: string, value: V)
    | WriteList(name: string, items: seq<Option<V>>)
    | WriteValidationErrors(errs: E)

  /** One operation; a write to a property the model does not have changes
      nothing. */
  function Step<V(!new), E>(m: Model<V, E>, op: Op<V, E>, clone: V -> Option<V>): Result<Model<V, E>, Fault>
  {
    match op
    case BeginEditOp => Success(BeginEdit(m))
    case EndEditOp => EndEdit(m)
    case CancelEditOp => CancelEdit(m, clone)
    case MakeDirtyOp => Success(MakeDirty(m))
    case UndoOp => Undo(m, clone)
    case ApplyOp => Success(Apply(m))
    case CancelApplyOp => Success(CancelApply(m))
    case ClearDirtyOp => Success(ClearDirty(m))
    case SetErrorOp(message, property) => Success(SetError(m, message, property))
    case WriteScalar(name, value) =>
      Success(if name in m.scalars then m.(scalars := m.scalars[name := value]) else m)
    case WriteList(name, items) =>
      Success(if name in m.lists then m.(lists := m.lists[name := items]) else m)
    case WriteValidationErrors(errs) => Success(m.(validationErrors := errs))
  }

  /** Apply operations in order, stopping at the first fault. */
  function Run<V(!new), E>(m: Model<V, E>, ops: seq<Op<V, E>>, clone: V -> Option<V>): Result<Model<V, E>, Fault>
    decreases |ops|
  {
    if ops == [] then Success(m)
    else match Step(m, ops[0], clone)
      case Failure(f) => Failure(f)
      case Success(next) => Run(next, ops[1..], clone)
  }

  /** A new model whose property names agree with its schema is consistent. */
  lemma {:induction false} NewIsConsistent<V, E>(schema: Schema, scalars: map<string, V>, lists: map<string, seq<Option<V>>>, errs: E)
    requires lists.Keys == schema.listPolicy.Keys && scalars.Keys !! lists.Keys
    ensures Consistent(New(schema, scalars, lists, errs))
  {
  }

  /** Restoring a fitting snapshot keeps the property names. */
  lemma {:induction false} RestoreKeepsShape<V, E>(s: Snapshot<V, E>, m: Model<V, E>, clone: V -> Option<V>)
    requires Fits(s, m)
    ensures SameShape(Restore(s, m, clone), m)
  {
  }

  /** BeginEdit pushes a frame that fits and leaves the rest alone. */
  lemma {:induction false} BeginEditPreservesConsistency<V(!new), E>(m: Model<V, E>)
    requires Consistent(m)
    ensures Consistent(BeginEdit(m))
  {
    var r := BeginEdit(m);
    assert forall i :: 0 <= i < |m.editStack| ==> r.editStack[i] == m.editStack[i];
  }

  /** EndEdit moves a fitting frame into the buffer. */
  lemma {:induction false} EndEditPreservesConsistency<V, E>(m: Model<V, E>)
    requires Consistent(m)
    requires EndEdit(m).Success?
    ensures Consistent(EndEdit(m).value)
  {
    var r := EndEdit(m).value;
    var n := |m.editStack|;
    assert Fits(m.editStack[n - 1], m);
    assert forall i :: 0 <= i < n - 1 ==> r.editStack[i] == m.editStack[i];
  }

  /** CancelEdit restores a fitting frame; with no buffer, that frame did
      not record CanUndo. */
  lemma {:induction false} CancelEditPreservesConsistency<V, E>(m: Model<V, E>, clone: V -> Option<V>)
    requires Consistent(m)
    requires CancelEdit(m, clone).Success?
    ensures Consistent(CancelEdit(m, clone).value)
  {
    var r := CancelEdit(m, clone).value;
    var n := |m.editStack|;
    var top := m.editStack[n - 1];
    var popped := m.(editStack := m.editStack[..n - 1]);
    assert Fits(top, m);
    RestoreKeepsShape(top, popped, clone);
    assert forall i :: 0 <= i < n - 1 ==> r.editStack[i] == m.editStack[i];
    assert r.canUndo == top.canUndo;
  }

  /** Undo restores the fitting buffer and clears both flags. */
  lemma {:induction false} UndoPreservesConsistency<V, E>(m: Model<V, E>, clone: V -> Option<V>)
    requires Consistent(m)
    requires Undo(m, clone).Success?
    ensures Consistent(Undo(m, clone).value)
  {
    RestoreKeepsShape(m.undoBuffer.value, m, clone);
  }

  /** Every operation preserves the invariant. */
  lemma {:induction false} StepPreservesConsistency<V(!new), E>(m: Model<V, E>, op: Op<V, E>, clone: V -> Option<V>)
    requires Consistent(m)
    requires Step(m, op, clone).Success?
    ensures Consistent(Step(m, op, clone).value)
  {
    match op
    case BeginEditOp => BeginEditPreservesConsistency(m);
    case EndEditOp => EndEditPreservesConsistency(m);
    case CancelEditOp => CancelEditPreservesConsistency(m, clone);
    case MakeDirtyOp =>
    case UndoOp => UndoPreservesConsistency(m, clone);
    case ApplyOp =>
    case CancelApplyOp =>
    case ClearDirtyOp =>
    case SetErrorOp(message, property) => SetErrorKeepsMessagesNonEmpty(m, message, property);
    case WriteScalar(name, value) =>
    case WriteList(name, items) =>
    case WriteValidationErrors(errs) =>
  }

  /** Any run of operations that does not fault preserves the invariant. */
  lemma {:induction false} RunPreservesConsistency<V(!new), E>(m: Model<V, E>, ops: seq<Op<V, E>>, clone: V -> Option<V>)
    requires Consistent(m)
    requires Run(m, ops, clone).Success?
    ensures Consistent(Run(m, ops, clone).value)
    decreases |ops|
  {
    if ops != [] {
      StepPreservesConsistency(m, ops[0], clone);
      RunPreservesConsistency(Step(m, ops[0], clone).value, ops[1..], clone);
    }
  }

  /** On a consistent model Undo faults exactly when undo is unavailable:
      the null-buffer fault cannot happen. */
  lemma {:induction false} ConsistentUndoFaultsOnlyWhenUnavailable<V, E>(m: Model<V, E>, clone: V -> Option<V>)
    requires Consistent(m)
    ensures Undo(m, clone).Failure? <==> !m.canUndo
    ensures Undo(m, clone).Failure? ==> Undo(m, clone).error == UndoUnavailable
  {
  }

  /** The public CanUndo setter is the one way around the invariant: set on a
      new model, it makes Undo dereference the missing buffer. */
  lemma PublicCanUndoSetterArmsMissingBuffer<V, E>(schema: Schema, scalars: map<string, V>, lists: map<string, seq<Option<V>>>, errs: E, clone: V -> Option<V>)
    ensures !Consistent(SetCanUndo(New(schema, scalars, lists, errs), true))
    ensures Undo(SetCanUndo(New(schema, scalars, lists, errs), true), clone) == Failure(UndoBufferNull)
  {
  }
}

=== FILE: enumerable.dfy ===
/** EnumerableExtensions: ForEach (eager: runs the action over the whole
    sequence, then returns it) and ForEachByOne (lazy: runs the action on
    each element just before yielding it), each plain, indexed, and ranged.

    The action's side effect is modelled by the value it returns; the eager
    overloads return the trace of those values, the lazy ones the interleaved
    trace of action runs and yields. `None` stands for a null `ie`. A lazy
    enumeration is observed through `pulls`, the number of times its consumer
    calls MoveNext. */
module EnumerableExtensions {
  import opened Wrappers

  /** ArgumentNullException("ie") (or "source", from Enumerable.Skip). */
  datatype EnumerableError = ArgumentNull

  /** C#'s `int`. */
  type Int32 = x: int | -0x8000_0000 <= x < 0x8000_0000

  /** One step of a lazy enumeration: the action ran, or an element was
      handed to the consumer. */
  datatype Event<T, A> = Acted(effect: A) | Yielded(item: T)

  /** The smaller of two naturals. */
  function Min(a: nat, b: nat): nat
  {
    if a <= b then a else b
  }

  // -------------------------------------------------------------- ForEach

  /** ForEach(ie, action): a null `ie` throws before the action runs;
      otherwise the action runs once per element, in order, and `ie` itself
      is returned. */
  method ForEach<T, A>(ie: Option<seq<T>>, action: T -> A) returns (r: Result<seq<T>, EnumerableError>, trace: seq<A>)
    ensures ie.None? ==> r == Failure(ArgumentNull) && trace == []
    ensures ie.Some? ==> r == Success(ie.value)
    ensures ie.Some? ==> |trace| == |ie.value| && forall i :: 0 <= i < |ie.value| ==> trace[i] == action(ie.value[i])
  {
    if ie.None? {
      return Failure(ArgumentNull), [];
    }
    var s := ie.value;
    trace := [];
    var i := 0;
    while i < |s|
      invariant 0 <= i <= |s|
      invariant |trace| == i
      invariant forall j :: 0 <= j < i ==> trace[j] == action(s[j])
    {
      trace := trace + [action(s[i])];
      i := i + 1;
    }
    r := Success(s);
  }

  /** ForEach(ie, action) with an index: the action receives each element
      with its position 0, 1, 2, ... in order. */
  method ForEachIndexed<T, A>(ie: Option<seq<T>>, action: (T, int) -> A) returns (r: Result<seq<T>, EnumerableError>, trace: seq<A>)
    ensures ie.None? ==> r == Failure(ArgumentNull) && trace == []
    ensures ie.Some? ==> r == Success(ie.value)
    ensures ie.Some? ==> |trace| == |ie.value| && forall i :: 0 <= i < |ie.value| ==> trace[i] == action(ie.value[i], i)
  {
    if ie.None? {
      return Failure(ArgumentNull), [];
    }
    var s := ie.value;
    trace := [];
    var index := 0;
    while index < |s|
      invariant 0 <= index <= |s|
      invariant |trace| == index
      invariant forall j :: 0 <= j < index ==> trace[j] == action(s[j], j)
    {
      trace := trace + [action(s[index], index)];
      index := index + 1;
    }
    r := Success(s);
  }

  // ---------------------------------------------------------- ForEachByOne

  /** The events of the first `n - from` MoveNext calls that find an element,
      starting at position `from`: run the action on element i with index i,
      then yield element i. */
  function ByOneEvents<T, A>(s: seq<T>, action: (T, int) -> A, from: nat, n: nat): (r: seq<Event<T, A>>)
    requires from <= n <= |s|
    ensures |r| == 2 * (n - from)
    ensures forall i :: from <= i < n ==>
      r[2 * (i - from)] == Acted(action(s[i], i)) && r[2 * (i - from) + 1] == Yielded(s[i])
    decreases n - from
  {
    if from == n then []
    else
      var rest := ByOneEvents(s, action, from + 1, n);
      assert forall i :: from + 1 <= i < n ==> rest[2 * (i - from) - 2] == Acted(action(s[i], i));
      [Acted(action(s[from], from)), Yielded(s[from])] + rest
  }

  /** The elements a trace hands to its consumer, in order. */
  function Yields<T, A>(events: seq<Event<T, A>>): seq<T>
    decreases |events|
  {
    if events == [] then []
    else (if events[0].Yielded? then [events[0].item] else []) + Yields(events[1..])
  }

  /** ForEachByOne(ie, action, index) enumerated with `pulls` MoveNext calls:
      nothing happens until the first MoveNext, which throws for a null `ie`;
      otherwise element i is acted on with index i and then yielded, for the
      first min(pulls, |ie|) elements. */
  function ForEachByOneIndexed<T, A>(ie: Option<seq<T>>, action: (T, int) -> A, pulls: nat): (r: Result<seq<Event<T, A>>, EnumerableError>)
    ensures ie.None? ==> (if pulls == 0 then r == Success([]) else r == Failure(ArgumentNull))
    ensures ie.Some? ==>
      var n := Min(pulls, |ie.value|);
      && r.Success? && |r.value| == 2 * n
      && forall i :: 0 <= i < n ==>
           r.value[2 * i] == Acted(action(ie.value[i], i)) && r.value[2 * i + 1] == Yielded(ie.value[i])
  {
    if ie.None? then (if pulls == 0 then Success([]) else Failure(ArgumentNull))
    else Success(ByOneEvents(ie.value, action, 0, Min(pulls, |ie.value|)))
  }

  /** ForEachByOne(ie, action) enumerated with `pulls` MoveNext calls: as the
      indexed overload, with an action that ignores the index. */
  function ForEachByOne<T, A>(ie: Option<seq<T>>, action: T -> A, pulls: nat): (r: Result<seq<Event<T, A>>, EnumerableError>)
    ensures ie.None? ==> (if pulls == 0 then r == Success([]) else r == Failure(ArgumentNull))
    ensures ie.Some? ==>
      var n := Min(pulls, |ie.value|);
      && r.Success? && |r.value| == 2 * n
      && forall i :: 0 <= i < n ==>
           r.value[2 * i] == Acted(action(ie.value[i])) && r.value[2 * i + 1] == Yielded(ie.value[i])
  {
    ForEachByOneIndexed(ie, (x: T, i: int) => action(x), pulls)
  }

  /** A lazy enumeration yields exactly the first `n` input elements, in
      order. */
  lemma {:induction false} ByOneYieldsPrefix<T, A>(s: seq<T>, action: (T, int) -> A, from: nat, n: nat)
    requires from <= n <= |s|
    ensures Yields(ByOneEvents(s, action, from, n)) == s[from..n]
    decreases n - from
  {
    if from < n {
      var rest := ByOneEvents(s, action, from + 1, n);
      var e := ByOneEvents(s, action, from, n);
      assert e == [Acted(action(s[from], from)), Yielded(s[from])] + rest;
      assert e[1..] == [Yielded(s[from])] + rest;
      assert e[1..][1..] == rest;
      ByOneYieldsPrefix(s, action, from + 1, n);
      assert s[from..n] == [s[from]] + s[from + 1..n];
    }
  }

  /** Fully enumerated, ForEachByOne yields its input unchanged. */
  lemma {:induction false} ForEachByOneYieldsInput<T, A>(s: seq<T>, action: T -> A)
    ensures ForEachByOne(Some(s), action, |s|).Success?
    ensures Yields(ForEachByOne(Some(s), action, |s|).value) == s
  {
    ByOneYieldsPrefix(s, (x: T, i: int) => action(x), 0, |s|);
    assert s[0..|s|] == s;
  }

  /** The action results a trace records, in order. */
  function Acts<T, A>(events: seq<Event<T, A>>): seq<A>
    decreases |events|
  {
    if events == [] then []
    else (if events[0].Acted? then [events[0].effect] else []) + Acts(events[1..])
  }

  /** A lazy enumeration runs the action on exactly the first `n` elements,
      in order, each with its own position as index. */
  lemma {:induction false} ByOneActsOnPrefix<T, A>(s: seq<T>, action: (T, int) -> A, from: nat, n: nat)
    requires from <= n <= |s|
    ensures |Acts(ByOneEvents(s, action, from, n))| == n - from
    ensures forall i :: from <= i < n ==> Acts(ByOneEvents(s, action, from, n))[i - from] == action(s[i], i)
    decreases n - from
  {
    if from < n {
      var rest := ByOneEvents(s, action, from + 1, n);
      var e := ByOneEvents(s, action, from, n);
      assert e == [Acted(action(s[from], from)), Yielded(s[from])] + rest;
      assert e[1..] == [Yielded(s[from])] + rest;
      assert e[1..][1..] == rest;
      ByOneActsOnPrefix(s, action, from + 1, n);
      var tail := Acts(rest);
      assert Acts(e) == [action(s[from], from)] + tail;
      forall i | from <= i < n
        ensures Acts(e)[i - from] == action(s[i], i)
      {
        if i > from {
          assert Acts(e)[i - from] == tail[i - (from + 1)];
        }
      }
    }
  }

  /** Enumerated to the end, the lazy indexed overload performs the same
      actions, in the same order and with the same indices, as the eager
      indexed ForEach. */
  lemma {:induction false} ForEachByOneActsLikeForEach<T, A>(s: seq<T>, action: (T, int) -> A)
    ensures ForEachByOneIndexed(Some(s), action, |s|).Success?
    ensures var acts := Acts(ForEachByOneIndexed(Some(s), action, |s|).value);
      |acts| == |s| && forall i :: 0 <= i < |s| ==> acts[i] == action(s[i], i)
  {
    ByOneActsOnPrefix(s, action, 0, |s|);
  }

  // ---------------------------------------------------------------- Ranges

  /** Enumerable.Skip: a non-positive count skips nothing. */
  function Skip<T>(s: seq<T>, count: int): seq<T>
  {
    if count <= 0 then s else if count >= |s| then [] else s[count..]
  }

  /** Enumerable.Take: a non-positive count takes nothing. */
  function TakeFirst<T>(s: seq<T>, count: int): seq<T>
  {
    if count <= 0 then [] else if count >= |s| then s else s[..count]
  }

  /** Two's-complement wrap-around of an int32 result. */
  function Wrap32(x: int): Int32
  {
    (x + 0x8000_0000) % 0x1_0000_0000 - 0x8000_0000
  }

  /** `end - start + 1` as the source computes it, in unchecked int32
      arithmetic. */
  function RangeCountAsWritten(start: Int32, end: Int32): Int32
  {
    Wrap32(end - start + 1)
  }

  /** The number of positions from `start` to `end` inclusive. */
  function RangeCount(start: Int32, end: Int32): int
  {
    end - start + 1
  }

  /** `ie.Skip(start).Take(end - start + 1)` as written: a contiguous run
      of the input that begins at `start` (at 0 for a negative start) and is
      as long as the wrapped count allows, empty when that count is not
      positive. */
  function RangeAsWritten<T>(s: seq<T>, start: Int32, end: Int32): (r: seq<T>)
    ensures var lo := if start <= 0 then 0 else Min(start, |s|);
      var n := RangeCountAsWritten(start, end);
      && |r| == (if n <= 0 then 0 else Min(n, |s| - lo))
      && r == s[lo..lo + |r|]
  {
    var lo := if start <= 0 then 0 else Min(start, |s|);
    var n := RangeCountAsWritten(start, end);
    var skipped := Skip(s, start);
    assert skipped == s[lo..];
    var r := TakeFirst(skipped, n);
    assert n > 0 && n < |skipped| ==> r == s[lo..lo + n];
    r
  }

  /** `ie.Skip(start).Take(end - start + 1)` with the count computed without
      overflow. */
  function Range<T>(s: seq<T>, start: Int32, end: Int32): seq<T>
  {
    TakeFirst(Skip(s, start), RangeCount(start, end))
  }

  /** For a non-negative start the range is exactly the positions
      start..end inclusive that exist, and empty when end < start. */
  lemma {:induction false} RangeIsPositions<T>(s: seq<T>, start: Int32, end: Int32)
    requires 0 <= start
    ensures end < start ==> Range(s, start, end) == []
    ensures start <= end ==> Range(s, start, end) == s[Min(start, |s|)..Min(end + 1, |s|)]
  {
    if start <= end && start < |s| {
      var rest := s[start..];
      if end + 1 < |s| {
        assert rest[..end - start + 1] == s[start..end + 1];
      } else {
        assert rest == s[start..|s|];
      }
    }
  }

  /** Wherever `end - start + 1` fits in an int32, the code as written
      selects the same range. */
  lemma {:induction false} RangeAsWrittenAgreesWithoutOverflow<T>(s: seq<T>, start: Int32, end: Int32)
    requires -0x8000_0000 <= end - start + 1 < 0x8000_0000
    ensures RangeAsWritten(s, start, end) == Range(s, start, end)
  {
    assert RangeCountAsWritten(start, end) == RangeCount(start, end);
  }

  /** The overflow: asking for everything from position 0 up to
      int.MaxValue wraps the count to int.MinValue, so the code as written
      selects nothing, while the intended range is the whole sequence. */
  lemma {:induction false} RangeOverflowSelectsNothing<T>(s: seq<T>)
    requires |s| <= 0x7FFF_FFFF
    ensures RangeCountAsWritten(0, 0x7FFF_FFFF) == -0x8000_0000
    ensures RangeAsWritten(s, 0, 0x7FFF_FFFF) == []
    ensures Range(s, 0, 0x7FFF_FFFF) == s
  {
  }

  /** Whenever the count `end - start + 1` fits in an int32 and `start` is
      not negative, the code as written selects exactly the existing
      positions start..end. */
  lemma RangeAsWrittenIsPositions<T>(s: seq<T>, start: Int32, end: Int32)
    requires 0 <= start && -0x8000_0000 <= end - start + 1 < 0x8000_0000
    ensures end < start ==> RangeAsWritten(s, start, end) == []
    ensures start <= end ==> RangeAsWritten(s, start, end) == s[Min(start, |s|)..Min(end + 1, |s|)]
  {
    RangeAsWrittenAgreesWithoutOverflow(s, start, end);
    RangeIsPositions(s, start, end);
  }

  /** ForEach(ie, start, end, action): Enumerable.Skip throws for a null
      `ie` at once; otherwise the indexed ForEach runs over the range as
      the code computes it, with indices restarting at 0, and that range is
      returned. Where the count fits in an int32 this is positions
      start..end; from 0 to int.MaxValue the count wraps and nothing is
      acted on. */
  method ForEachRange<T, A>(ie: Option<seq<T>>, start: Int32, end: Int32, action: (T, int) -> A)
    returns (r: Result<seq<T>, EnumerableError>, trace: seq<A>)
    ensures ie.None? ==> r == Failure(ArgumentNull) && trace == []
    ensures ie.Some? ==> r == Success(RangeAsWritten(ie.value, start, end))
    ensures ie.Some? ==>
      var sub := RangeAsWritten(ie.value, start, end);
      |trace| == |sub| && forall i :: 0 <= i < |sub| ==> trace[i] == action(sub[i], i)
    ensures ie.Some? && 0 <= start <= end && end - start + 1 < 0x8000_0000 ==>
      r == Success(ie.value[Min(start, |ie.value|)..Min(end + 1, |ie.value|)])
    ensures ie.Some? && start == 0 && end == 0x7FFF_FFFF ==> r == Success([]) && trace == []
  {
    if ie.None? {
      return Failure(ArgumentNull), [];
    }
    var sub := RangeAsWritten(ie.value, start, end);
    if 0 <= start <= end && end - start + 1 < 0x8000_0000 {
      RangeAsWrittenIsPositions(ie.value, start, end);
    }
    r, trace := ForEachIndexed(Some(sub), action);
  }

  /** ForEachByOne(ie, start, end, action) enumerated with `pulls` MoveNext
      calls: the null check is eager here (Enumerable.Skip), then the lazy
      indexed overload runs over the range as the code computes it. From 0
      to int.MaxValue the count wraps and nothing is yielded. */
  function ForEachByOneRange<T, A>(ie: Option<seq<T>>, start: Int32, end: Int32, action: (T, int) -> A, pulls: nat)
    : (r: Result<seq<Event<T, A>>, EnumerableError>)
    ensures ie.None? ==> r == Failure(ArgumentNull)
    ensures ie.Some? ==>
      var sub := RangeAsWritten(ie.value, start, end);
      var n := Min(pulls, |sub|);
      && r.Success? && |r.value| == 2 * n
      && forall i :: 0 <= i < n ==> r.value[2 * i] == Acted(action(sub[i], i)) && r.value[2 * i + 1] == Yielded(sub[i])
    ensures ie.Some? && 0 <= start <= end && end - start + 1 < 0x8000_0000 ==>
      Yields(r.value) == ie.value[Min(start, |ie.value|)..Min(end + 1, |ie.value|)][..Min(pulls, Min(end + 1, |ie.value|) - Min(start, |ie.value|))]
    ensures ie.Some? && start == 0 && end == 0x7FFF_FFFF ==> r == Success([])
  {
    if ie.None? then Failure(ArgumentNull)
    else
      var sub := RangeAsWritten(ie.value, start, end);
      var n := Min(pulls, |sub|);
      ByOneYieldsPrefix(sub, action, 0, n);
      if 0 <= start <= end && end - start + 1 < 0x8000_0000 then
        RangeAsWrittenIsPositions(ie.value, start, end);
        ForEachByOneIndexed(Some(sub), action, pulls)
      else
        ForEachByOneIndexed(Some(sub), action, pulls)
  }

  /** The plain lazy overload defers the null check to the first MoveNext,
      the ranged one does not: with no enumeration at all, only the ranged
      one has thrown. */
  lemma NullCheckLazyVersusEager<T, A>(action: (T, int) -> A, start: Int32, end: Int32)
    ensures ForEachByOneIndexed(None, action, 0) == Success([])
    ensures ForEachByOneRange(None, start, end, action, 0) == Failure(ArgumentNull)
  {
  }
}

=== FILE: merge.dfy ===
/** Extensions.Merge: reconcile a destination list with a source list in
    place. Destination elements of type `D` are object references: two equal
    `D` values are the same object. `None` stands for a null element or a
    null argument. The comparator and creator are the caller's delegates;
    `mergeable(d)` says whether `d` implements IMergeable of the source type
    and `same(d, a)` whether `d` and `a` are the same object. What
    IMergeable.Merge does inside an element is not visible here; a call to it
    is recorded as a `Merged` event. */
module Reconcile {
  import opened Wrappers

  /** The ArgumentExceptions Merge throws, and the ArgumentNullException of
      ToList on a null destination. */
  datatype MergeError = ComparatorNull | CreatorNull | SourceNull | DestinationNull

  /** Observable effects, in order: an element removed from the destination,
      a factory call (with the element it produced and appended), or a call
      of IMergeable.Merge on a destination element. */
  datatype MergeEvent<D, S> =
    | Removed(item: D)
    | Created(source: S, made: Option<D>)
    | Merged(target: D, source: S)

  /** Some source element is equivalent to `d`. */
  predicate Matches<D, S>(d: D, sources: seq<S>, cmp: (D, S) -> bool)
  {
    exists i :: 0 <= i < |sources| && cmp(d, sources[i])
  }

  /** `old`: the destination elements that no source element matches, in
      destination order. */
  function Unmatched<D(!new), S>(ds: seq<D>, sources: seq<S>, cmp: (D, S) -> bool): (r: seq<D>)
    ensures |r| <= |ds|
    ensures forall d :: d in r <==> d in ds && !Matches(d, sources, cmp)
  {
    if ds == [] then []
    else (if Matches(ds[0], sources, cmp) then [] else [ds[0]]) + Unmatched(ds[1..], sources, cmp)
  }

  /** Each unmatched element is kept as often as it occurs; a matched one
      not at all. */
  lemma {:induction false} UnmatchedCounts<D(!new), S>(ds: seq<D>, sources: seq<S>, cmp: (D, S) -> bool)
    ensures forall d :: multiset(Unmatched(ds, sources, cmp))[d] == if Matches(d, sources, cmp) then 0 else multiset(ds)[d]
    decreases |ds|
  {
    if ds != [] {
      assert ds == [ds[0]] + ds[1..];
      UnmatchedCounts(ds[1..], sources, cmp);
    }
  }

  /** `old` keeps the destination order: the unmatched elements of a
      concatenation are those of each part, in place. */
  lemma {:induction false} UnmatchedAppend<D(!new), S>(a: seq<D>, b: seq<D>, sources: seq<S>, cmp: (D, S) -> bool)
    ensures Unmatched(a + b, sources, cmp) == Unmatched(a, sources, cmp) + Unmatched(b, sources, cmp)
    decreases |a|
  {
    if a == [] {
      assert a + b == b;
    } else {
      assert (a + b)[0] == a[0];
      assert (a + b)[1..] == a[1..] + b;
      UnmatchedAppend(a[1..], b, sources, cmp);
    }
  }

  /** The position of the first occurrence of `x` in `s`. */
  function PositionOf<X(==)>(s: seq<X>, x: X): (r: nat)
    requires x in s
    ensures r < |s| && s[r] == x && x !in s[..r]
  {
    if s[0] == x then 0
    else
      var j := PositionOf(s[1..], x);
      assert s[..j + 1] == [s[0]] + s[1..][..j];
      j + 1
  }

  /** Cutting position j out of the tail is cutting position j + 1 out of
      the whole. */
  lemma SpliceCons<X>(s: seq<X>, j: nat)
    requires j + 1 < |s|
    ensures [s[0]] + (s[1..][..j] + s[1..][j + 1..]) == s[..j + 1] + s[j + 2..]
  {
    assert s[1..][..j] == s[1..j + 1];
    assert s[1..][j + 1..] == s[j + 2..];
    assert [s[0]] + s[1..j + 1] == s[..j + 1];
  }

  /** IList.Remove: drop the first element that is `x`, if there is one;
      the others keep their order (RemoveFirstDropsFirstOccurrence). */
  function RemoveFirst<D(==)>(s: seq<Option<D>>, x: D): (r: seq<Option<D>>)
    ensures Some(x) in s ==> |r| == |s| - 1
    ensures Some(x) !in s ==> r == s
  {
    if s == [] then []
    else if s[0] == Some(x) then s[1..]
    else [s[0]] + RemoveFirst(s[1..], x)
  }

  /** IList.Remove removes exactly the first occurrence of `x` and keeps the
      remaining elements in order. */
  lemma {:induction false} RemoveFirstDropsFirstOccurrence<D>(s: seq<Option<D>>, x: D)
    requires Some(x) in s
    ensures var i := PositionOf(s, Some(x)); RemoveFirst(s, x) == s[..i] + s[i + 1..]
    decreases |s|
  {
    if s[0] == Some(x) {
      assert s[..0] + s[1..] == s[1..];
    } else {
      RemoveFirstDropsFirstOccurrence(s[1..], x);
      var j := PositionOf(s[1..], Some(x));
      assert PositionOf(s, Some(x)) == j + 1;
      SpliceCons(s, j);
    }
  }

  /** IList.Remove introduces nothing and keeps every other element. */
  lemma {:induction false} RemoveFirstKeepsOthers<D>(s: seq<Option<D>>, x: D)
    ensures forall y :: y in RemoveFirst(s, x) ==> y in s
    ensures forall y :: y in s && y != Some(x) ==> y in RemoveFirst(s, x)
    decreases |s|
  {
    if s != [] && s[0] != Some(x) {
      RemoveFirstKeepsOthers(s[1..], x);
      assert s == [s[0]] + s[1..];
    }
  }

  /** `stale.ForEach(a => destination.Remove(a))`. */
  function RemoveEach<D(==)>(s: seq<Option<D>>, xs: seq<D>): (r: seq<Option<D>>)
    ensures |s| - |xs| <= |r| <= |s|
    decreases |xs|
  {
    if xs == [] then s else RemoveEach(RemoveFirst(s, xs[0]), xs[1..])
  }

  /** The removal loop introduces nothing and keeps every null and every
      element that is not listed for removal. */
  lemma {:induction false} RemoveEachKeepsUnlisted<D>(s: seq<Option<D>>, xs: seq<D>)
    ensures forall y :: y in RemoveEach(s, xs) ==> y in s
    ensures forall y :: y in s && (y.None? || y.value !in xs) ==> y in RemoveEach(s, xs)
    decreases |xs|
  {
    if xs != [] {
      var t := RemoveFirst(s, xs[0]);
      RemoveFirstKeepsOthers(s, xs[0]);
      RemoveEachKeepsUnlisted(t, xs[1..]);
    }
  }

  /** Reference definition of the removal phase: keep the nulls and every
      element some non-null source element matches, in order. */
  function Survivors<D(!new), S>(dest: seq<Option<D>>, sources: seq<S>, cmp: (D, S) -> bool): (r: seq<Option<D>>)
    ensures |r| <= |dest|
    ensures forall x :: x in r <==> x in dest && (x.None? || Matches(x.value, sources, cmp))
  {
    if dest == [] then []
    else
      (if dest[0].None? || Matches(dest[0].value, sources, cmp) then [dest[0]] else [])
      + Survivors(dest[1..], sources, cmp)
  }

  /** Position of the first non-null destination element equivalent to `a`
      (`destination.Where(b => b != null).FirstOrDefault(b => comparator(b, a))`). */
  function FirstMatch<D, S>(dest: seq<Option<D>>, a: S, cmp: (D, S) -> bool, from: nat): (r: Option<nat>)
    requires from <= |dest|
    ensures r.Some? ==>
      && from <= r.value < |dest|
      && dest[r.value].Some? && cmp(dest[r.value].value, a)
      && forall j :: from <= j < r.value && dest[j].Some? ==> !cmp(dest[j].value, a)
    ensures r.None? ==> forall j :: from <= j < |dest| && dest[j].Some? ==> !cmp(dest[j].value, a)
    decreases |dest| - from
  {
    if from == |dest| then None
    else if dest[from].Some? && cmp(dest[from].value, a) then Some(from)
    else FirstMatch(dest, a, cmp, from + 1)
  }

  /** The `Created` events' products, in order: what was appended. */
  function Made<D, S>(events: seq<MergeEvent<D, S>>): seq<Option<D>>
    decreases |events|
  {
    if events == [] then []
    else (if events[0].Created? then [events[0].made] else []) + Made(events[1..])
  }

  /** The body of the source loop for one non-null source element `a`:
      append `creator(a)` when nothing matches; otherwise merge `a` into the
      first match if it is mergeable and not `a` itself. */
  function Reconcile1<D, S>(dest: seq<Option<D>>, a: S, creator: S -> Option<D>, cmp: (D, S) -> bool,
                           mergeable: D -> bool, same: (D, S) -> bool): (r: (seq<Option<D>>, seq<MergeEvent<D, S>>))
    ensures FirstMatch(dest, a, cmp, 0).None? ==> r == (dest + [creator(a)], [Created(a, creator(a))])
    ensures FirstMatch(dest, a, cmp, 0).Some? ==> r.0 == dest && Made(r.1) == []
    ensures forall i :: 0 <= i < |r.1| && r.1[i].Merged? ==>
      && r.1[i].source == a
      && FirstMatch(dest, a, cmp, 0).Some?
      && Some(r.1[i].target) == dest[FirstMatch(dest, a, cmp, 0).value]
      && mergeable(r.1[i].target) && !same(r.1[i].target, a)
  {
    match FirstMatch(dest, a, cmp, 0)
    case None => (dest + [creator(a)], [Created(a, creator(a))])
    case Some(i) =>
      var found := dest[i].value;
      if mergeable(found) && !same(found, a) then (dest, [Merged(found, a)]) else (dest, [])
  }

  /** `source.Where(a => a != null).ForEach(...)`: process the non-null
      source elements in order against the growing destination. */
  function ReconcileAll<D, S>(dest: seq<Option<D>>, source: seq<Option<S>>, creator: S -> Option<D>, cmp: (D, S) -> bool,
                             mergeable: D -> bool, same: (D, S) -> bool): (r: (seq<Option<D>>, seq<MergeEvent<D, S>>))
    ensures r.0 == dest + Made(r.1)
    decreases |source|
  {
    if source == [] then (dest, [])
    else if source[0].None? then ReconcileAll(dest, source[1..], creator, cmp, mergeable, same)
    else
      var (d1, e1) := Reconcile1(dest, source[0].value, creator, cmp, mergeable, same);
      var (d2, e2) := ReconcileAll(d1, source[1..], creator, cmp, mergeable, same);
      MadeAppend(e1, e2);
      (d2, e1 + e2)
  }

  /** `Made` distributes over concatenation. */
  lemma {:induction false} MadeAppend<D, S>(a: seq<MergeEvent<D, S>>, b: seq<MergeEvent<D, S>>)
    ensures Made(a + b) == Made(a) + Made(b)
    decreases |a|
  {
    if a != [] {
      var head: seq<Option<D>> := if a[0].Created? then [a[0].made] else [];
      assert (a + b)[0] == a[0];
      assert (a + b)[1..] == a[1..] + b;
      MadeAppend(a[1..], b);
      assert Made(a + b) == head + (Made(a[1..]) + Made(b));
      assert head + (Made(a[1..]) + Made(b)) == (head + Made(a[1..])) + Made(b);
    } else {
      assert a + b == b;
    }
  }

  /** One `Removed` event per element of `old`. */
  function Removals<D, S>(stale: seq<D>): (r: seq<MergeEvent<D, S>>)
    ensures |r| == |stale| && forall i :: 0 <= i < |stale| ==> r[i] == Removed(stale[i])
  {
    seq(|stale|, i requires 0 <= i < |stale| => Removed(stale[i]))
  }

  /** Extensions.Merge. Argument checks come first, in the source's order,
      and a failed check leaves the destination untouched; then the
      unmatched destination elements are removed and the source is
      reconciled in order. On success the result is the new destination and
      the events in the order they happened. */
  function Merge<D(==,!new), S(!new)>(destination: Option<seq<Option<D>>>, source: Option<seq<Option<S>>>,
                       creator: Option<S -> Option<D>>, comparator: Option<(D, S) -> bool>,
                       mergeable: D -> bool, same: (D, S) -> bool): (r: Result<(seq<Option<D>>, seq<MergeEvent<D, S>>), MergeError>)
    ensures comparator.None? ==> r == Failure(ComparatorNull)
    ensures comparator.Some? && creator.None? ==> r == Failure(CreatorNull)
    ensures comparator.Some? && creator.Some? && source.None? ==> r == Failure(SourceNull)
    ensures comparator.Some? && creator.Some? && source.Some? && destination.None? ==> r == Failure(DestinationNull)
    ensures r.Success? <==> comparator.Some? && creator.Some? && source.Some? && destination.Some?
  {
    if comparator.None? then Failure(ComparatorNull)
    else if creator.None? then Failure(CreatorNull)
    else if source.None? then Failure(SourceNull)
    else if destination.None? then Failure(DestinationNull)
    else
      var cmp := comparator.value;
      var stale := Unmatched(NonNull(destination.value), NonNull(source.value), cmp);
      var kept := RemoveEach(destination.value, stale);
      var (final, events) := ReconcileAll(kept, source.value, creator.value, cmp, mergeable, same);
      Success((final, Removals(stale) + events))
  }
}

=== FILE: merge_proofs.dfy ===
/** What Extensions.Merge guarantees: the removal phase removes exactly the
    unmatched non-null elements, matched elements and nulls keep their place
    and identity, new elements are appended in source order, every merge
    call targets the first equivalent element, and with a factory that
    produces an equivalent element, every source element ends up
    represented and a second merge changes nothing. */
module MergeProofs {
  import opened Wrappers
  import opened Reconcile

  /** Some non-null element of `ds` is equivalent to `a`. */
  ghost predicate HasMatch<D, S>(ds: seq<Option<D>>, a: S, cmp: (D, S) -> bool)
  {
    exists i :: 0 <= i < |ds| && ds[i].Some? && cmp(ds[i].value, a)
  }

  /** The factory produces a non-null element equivalent to its argument. */
  ghost predicate FaithfulCreator<D, S(!new)>(creator: S -> Option<D>, cmp: (D, S) -> bool)
  {
    forall a :: creator(a).Some? && cmp(creator(a).value, a)
  }

  /** Removing from a list whose head is none of the removed objects keeps
      the head in front. */
  lemma {:induction false} RemoveEachSkipsHead<D>(h: Option<D>, rest: seq<Option<D>>, xs: seq<D>)
    requires forall i :: 0 <= i < |xs| ==> h != Some(xs[i])
    ensures RemoveEach([h] + rest, xs) == [h] + RemoveEach(rest, xs)
    decreases |xs|
  {
    if xs != [] {
      assert ([h] + rest)[1..] == rest;
      assert RemoveFirst([h] + rest, xs[0]) == [h] + RemoveFirst(rest, xs[0]);
      RemoveEachSkipsHead(h, RemoveFirst(rest, xs[0]), xs[1..]);
    }
  }

  /** The removal phase (`old.ForEach(a => destination.Remove(a))`) is the
      filter `Survivors`: it removes exactly the non-null elements no source
      element matches, every occurrence of them, and keeps the rest in
      order. */
  lemma {:induction false} RemovalIsFilter<D(!new), S>(dest: seq<Option<D>>, sources: seq<S>, cmp: (D, S) -> bool)
    ensures RemoveEach(dest, Unmatched(NonNull(dest), sources, cmp)) == Survivors(dest, sources, cmp)
    decreases |dest|
  {
    if dest != [] {
      var x := dest[0];
      var rest := dest[1..];
      assert dest == [x] + rest;
      var restStale := Unmatched(NonNull(rest), sources, cmp);
      RemovalIsFilter(rest, sources, cmp);
      if x.None? {
        assert NonNull(dest) == NonNull(rest);
        RemoveEachSkipsHead(x, rest, restStale);
      } else {
        var d := x.value;
        assert NonNull(dest) == [d] + NonNull(rest);
        assert ([d] + NonNull(rest))[1..] == NonNull(rest);
        if Matches(d, sources, cmp) {
          assert Unmatched(NonNull(dest), sources, cmp) == restStale;
          forall i | 0 <= i < |restStale|
            ensures x != Some(restStale[i])
          {
            assert restStale[i] in restStale;
          }
          RemoveEachSkipsHead(x, rest, restStale);
        } else {
          assert Unmatched(NonNull(dest), sources, cmp) == [d] + restStale;
          assert ([d] + restStale)[1..] == restStale;
        }
      }
    }
  }

  /** The removal phase removes one element per entry of `old`. */
  lemma {:induction false} SurvivorsLength<D(!new), S>(dest: seq<Option<D>>, sources: seq<S>, cmp: (D, S) -> bool)
    ensures |Survivors(dest, sources, cmp)| == |dest| - |Unmatched(NonNull(dest), sources, cmp)|
    decreases |dest|
  {
    if dest != [] {
      SurvivorsLength(dest[1..], sources, cmp);
      if dest[0].Some? {
        assert NonNull(dest) == [dest[0].value] + NonNull(dest[1..]);
        assert ([dest[0].value] + NonNull(dest[1..]))[1..] == NonNull(dest[1..]);
      } else {
        assert NonNull(dest) == NonNull(dest[1..]);
      }
    }
  }

  /** Removal events create nothing. */
  lemma {:induction false} RemovalsMakeNothing<D, S>(stale: seq<D>)
    ensures Made(Removals<D, S>(stale)) == []
    decreases |stale|
  {
    if stale != [] {
      var r := Removals<D, S>(stale);
      assert r[1..] == Removals<D, S>(stale[1..]);
      RemovalsMakeNothing<D, S>(stale[1..]);
    }
  }

  /** The shape of a successful merge: first one Removed event per unmatched
      element, then the reconciliation events; the destination is the
      survivors of the removal phase followed by the factory-made elements in
      source order; its length is the initial length minus the removals plus
      the source elements that found no match at their turn. */
  lemma {:induction false} MergeShape<D(!new), S(!new)>(dest: seq<Option<D>>, source: seq<Option<S>>,
                                                          creator: S -> Option<D>, cmp: (D, S) -> bool,
                                                          mergeable: D -> bool, same: (D, S) -> bool)
    ensures var r := Merge(Some(dest), Some(source), Some(creator), Some(cmp), mergeable, same);
      var stale := Unmatched(NonNull(dest), NonNull(source), cmp);
      && r.Success?
      && r.value.1[..|stale|] == Removals(stale)
      && r.value.0 == Survivors(dest, NonNull(source), cmp) + Made(r.value.1)
      && |r.value.0| == |dest| - |stale| + |Made(r.value.1)|
  {
    var stale := Unmatched(NonNull(dest), NonNull(source), cmp);
    var kept := Survivors(dest, NonNull(source), cmp);
    var rec := ReconcileAll(kept, source, creator, cmp, mergeable, same);
    MergeUnfolds(dest, source, creator, cmp, mergeable, same);
    var events := Removals<D, S>(stale) + rec.1;
    RemovalsMakeNothing<D, S>(stale);
    MadeAppend(Removals<D, S>(stale), rec.1);
    assert Made(events) == Made(rec.1);
    assert events[..|stale|] == Removals(stale);
    SurvivorsLength(dest, NonNull(source), cmp);
  }

  /** A successful merge, phase by phase: the removal phase leaves the
      survivors, and the reconciliation runs on them. */
  lemma {:induction false} MergeUnfolds<D(!new), S(!new)>(dest: seq<Option<D>>, source: seq<Option<S>>,
                                                            creator: S -> Option<D>, cmp: (D, S) -> bool,
                                                            mergeable: D -> bool, same: (D, S) -> bool)
    ensures var stale := Unmatched(NonNull(dest), NonNull(source), cmp);
      var rec := ReconcileAll(Survivors(dest, NonNull(source), cmp), source, creator, cmp, mergeable, same);
      Merge(Some(dest), Some(source), Some(creator), Some(cmp), mergeable, same) == Success((rec.0, Removals(stale) + rec.1))
  {
    RemovalIsFilter(dest, NonNull(source), cmp);
  }

  /** Nulls and matched elements survive the merge with their identity;
      an element the source does not match is gone unless the factory made
      that same object again. */
  lemma {:induction false} MergeKeepsMatchedRemovesUnmatched<D(!new), S(!new)>(
    dest: seq<Option<D>>, source: seq<Option<S>>, creator: S -> Option<D>, cmp: (D, S) -> bool,
    mergeable: D -> bool, same: (D, S) -> bool)
    ensures var r := Merge(Some(dest), Some(source), Some(creator), Some(cmp), mergeable, same);
      && r.Success?
      && (forall x :: x in dest && (x.None? || Matches(x.value, NonNull(source), cmp)) ==> x in r.value.0)
      && (forall d :: Some(d) in r.value.0 && !Matches(d, NonNull(source), cmp) ==> Some(d) in Made(r.value.1))
  {
    MergeShape(dest, source, creator, cmp, mergeable, same);
  }

  /** Appending never loses a match. */
  lemma {:induction false} HasMatchExtends<D, S>(ds: seq<Option<D>>, more: seq<Option<D>>, a: S, cmp: (D, S) -> bool)
    requires HasMatch(ds, a, cmp)
    ensures HasMatch(ds + more, a, cmp)
  {
    var i :| 0 <= i < |ds| && ds[i].Some? && cmp(ds[i].value, a);
    assert (ds + more)[i] == ds[i];
  }

  /** Every `Merged` event targets an element that is mergeable, is not the
      source object itself, and is equivalent to it. */
  ghost predicate MergedSound<D, S>(events: seq<MergeEvent<D, S>>, cmp: (D, S) -> bool,
                                    mergeable: D -> bool, same: (D, S) -> bool)
  {
    forall i :: 0 <= i < |events| && events[i].Merged? ==>
      mergeable(events[i].target) && !same(events[i].target, events[i].source) && cmp(events[i].target, events[i].source)
  }

  /** The reconciliation merges only into mergeable, equivalent, distinct
      elements. */
  lemma {:induction false} MergedEventsAreSound<D, S>(dest: seq<Option<D>>, source: seq<Option<S>>,
                                                    creator: S -> Option<D>, cmp: (D, S) -> bool,
                                                    mergeable: D -> bool, same: (D, S) -> bool)
    ensures MergedSound(ReconcileAll(dest, source, creator, cmp, mergeable, same).1, cmp, mergeable, same)
    decreases |source|
  {
    if source != [] && source[0].None? {
      MergedEventsAreSound(dest, source[1..], creator, cmp, mergeable, same);
    } else if source != [] {
      var a := source[0].value;
      var r1 := Reconcile1(dest, a, creator, cmp, mergeable, same);
      var e1 := r1.1;
      var e2 := ReconcileAll(r1.0, source[1..], creator, cmp, mergeable, same).1;
      MergedEventsAreSound(r1.0, source[1..], creator, cmp, mergeable, same);
      assert ReconcileAll(dest, source, creator, cmp, mergeable, same).1 == e1 + e2;
      assert MergedSound(e1, cmp, mergeable, same) by {
        forall i | 0 <= i < |e1| && e1[i].Merged?
          ensures cmp(e1[i].target, e1[i].source)
        {
          var j := FirstMatch(dest, a, cmp, 0).value;
          assert Some(e1[i].target) == dest[j];
        }
      }
      MergedSoundAppend(e1, e2, cmp, mergeable, same);
    }
  }

  lemma {:induction false} MergedSoundAppend<D, S>(a: seq<MergeEvent<D, S>>, b: seq<MergeEvent<D, S>>, cmp: (D, S) -> bool,
                                                  mergeable: D -> bool, same: (D, S) -> bool)
    requires MergedSound(a, cmp, mergeable, same) && MergedSound(b, cmp, mergeable, same)
    ensures MergedSound(a + b, cmp, mergeable, same)
  {
    forall i | 0 <= i < |a + b| && (a + b)[i].Merged?
      ensures mergeable((a + b)[i].target) && !same((a + b)[i].target, (a + b)[i].source)
      ensures cmp((a + b)[i].target, (a + b)[i].source)
    {
      if i < |a| {
        assert (a + b)[i] == a[i];
      } else {
        assert (a + b)[i] == b[i - |a|];
      }
    }
  }

  /** Reference definition of the source loop, one turn at a time: the
      destination and the events after the first `k` non-null source
      elements have been processed, each exactly once and in order, against
      the destination the earlier turns left behind (elements appended by
      earlier turns included). */
  function Turns<D, S>(dest: seq<Option<D>>, xs: seq<S>, k: nat, creator: S -> Option<D>, cmp: (D, S) -> bool,
                      mergeable: D -> bool, same: (D, S) -> bool): (seq<Option<D>>, seq<MergeEvent<D, S>>)
    requires k <= |xs|
    decreases k
  {
    if k == 0 then (dest, [])
    else
      var before := Turns(dest, xs, k - 1, creator, cmp, mergeable, same);
      var turn := Reconcile1(before.0, xs[k - 1], creator, cmp, mergeable, same);
      (turn.0, before.1 + turn.1)
  }

  /** The events of turn `k`, the turn of `xs[k]`: one `Created` exactly
      when no non-null element of the destination at that turn matches
      `xs[k]`; otherwise no event or a single merge call carrying `xs[k]`. */
  function TurnEvents<D, S>(dest: seq<Option<D>>, xs: seq<S>, k: nat, creator: S -> Option<D>, cmp: (D, S) -> bool,
                           mergeable: D -> bool, same: (D, S) -> bool): (r: seq<MergeEvent<D, S>>)
    requires k < |xs|
    ensures var at := Turns(dest, xs, k, creator, cmp, mergeable, same).0;
      FirstMatch(at, xs[k], cmp, 0).None? <==> r == [Created(xs[k], creator(xs[k]))]
    ensures var at := Turns(dest, xs, k, creator, cmp, mergeable, same).0;
      FirstMatch(at, xs[k], cmp, 0).Some? ==> r == [] || (|r| == 1 && r[0].Merged? && r[0].source == xs[k])
    ensures Turns(dest, xs, k + 1, creator, cmp, mergeable, same).1 == Turns(dest, xs, k, creator, cmp, mergeable, same).1 + r
  {
    Reconcile1(Turns(dest, xs, k, creator, cmp, mergeable, same).0, xs[k], creator, cmp, mergeable, same).1
  }

  /** Taking the first turn separately: the turns over `[a] + ys` are the
      turn of `a` followed by the turns over `ys` from where `a` left the
      destination. */
  lemma {:induction false} TurnsCons<D, S>(dest: seq<Option<D>>, a: S, ys: seq<S>, k: nat, creator: S -> Option<D>,
                                          cmp: (D, S) -> bool, mergeable: D -> bool, same: (D, S) -> bool)
    requires k <= |ys|
    ensures var first := Reconcile1(dest, a, creator, cmp, mergeable, same);
      var later := Turns(first.0, ys, k, creator, cmp, mergeable, same);
      Turns(dest, [a] + ys, k + 1, creator, cmp, mergeable, same) == (later.0, first.1 + later.1)
    decreases k
  {
    var first := Reconcile1(dest, a, creator, cmp, mergeable, same);
    if k == 0 {
      assert ([a] + ys)[0] == a;
      assert [] + first.1 == first.1 + [];
    } else {
      TurnsCons(dest, a, ys, k - 1, creator, cmp, mergeable, same);
      assert ([a] + ys)[k] == ys[k - 1];
      var prior := Turns(first.0, ys, k - 1, creator, cmp, mergeable, same);
      var turn := Reconcile1(prior.0, ys[k - 1], creator, cmp, mergeable, same);
      assert Turns(first.0, ys, k, creator, cmp, mergeable, same) == (turn.0, prior.1 + turn.1);
      assert (first.1 + prior.1) + turn.1 == first.1 + (prior.1 + turn.1);
    }
  }

  /** The source loop (`source.Where(a => a != null).ForEach(...)`) takes
      one turn per non-null source element, in source order, and none for a
      null element: its result is the turn-by-turn reference `Turns` over
      `NonNull(source)`, whose turns `TurnEvents` characterises. */
  lemma {:induction false} ReconcileAllTakesTurns<D, S(!new)>(dest: seq<Option<D>>, source: seq<Option<S>>,
                                                      creator: S -> Option<D>, cmp: (D, S) -> bool,
                                                      mergeable: D -> bool, same: (D, S) -> bool)
    ensures var xs := NonNull(source);
      ReconcileAll(dest, source, creator, cmp, mergeable, same) == Turns(dest, xs, |xs|, creator, cmp, mergeable, same)
    decreases |source|
  {
    if source != [] {
      if source[0].None? {
        assert NonNull(source) == NonNull(source[1..]);
        ReconcileAllTakesTurns(dest, source[1..], creator, cmp, mergeable, same);
      } else {
        var a := source[0].value;
        var ys := NonNull(source[1..]);
        assert NonNull(source) == [a] + ys;
        var first := Reconcile1(dest, a, creator, cmp, mergeable, same);
        ReconcileAllTakesTurns(first.0, source[1..], creator, cmp, mergeable, same);
        TurnsCons(dest, a, ys, |ys|, creator, cmp, mergeable, same);
      }
    }
  }

  /** With a faithful factory, every non-null source element has an
      equivalent non-null element in the reconciled destination. */
  lemma {:induction false} ReconcileAllCovers<D, S>(dest: seq<Option<D>>, source: seq<Option<S>>,
                                                  creator: S -> Option<D>, cmp: (D, S) -> bool,
                                                  mergeable: D -> bool, same: (D, S) -> bool)
    requires forall k :: 0 <= k < |source| && source[k].Some? ==>
      creator(source[k].value).Some? && cmp(creator(source[k].value).value, source[k].value)
    ensures var final := ReconcileAll(dest, source, creator, cmp, mergeable, same).0;
      forall k :: 0 <= k < |source| && source[k].Some? ==> HasMatch(final, source[k].value, cmp)
    decreases |source|
  {
    if source != [] {
      var r := ReconcileAll(dest, source, creator, cmp, mergeable, same);
      if source[0].None? {
        ReconcileAllCovers(dest, source[1..], creator, cmp, mergeable, same);
        assert forall k :: 1 <= k < |source| ==> source[k] == source[1..][k - 1];
      } else {
        var a := source[0].value;
        var (d1, e1) := Reconcile1(dest, a, creator, cmp, mergeable, same);
        ReconcileAllCovers(d1, source[1..], creator, cmp, mergeable, same);
        var r2 := ReconcileAll(d1, source[1..], creator, cmp, mergeable, same);
        assert r.0 == r2.0;
        assert forall k :: 1 <= k < |source| ==> source[k] == source[1..][k - 1];
        assert HasMatch(d1, a, cmp) by {
          match FirstMatch(dest, a, cmp, 0)
          case None =>
            assert d1[|dest|] == creator(a);
          case Some(j) =>
            assert d1[j] == dest[j];
        }
        HasMatchExtends(d1, Made(r2.1), a, cmp);
      }
    }
  }

  /** With a faithful factory, every element the reconciliation appends is
      equivalent to some non-null source element. */
  lemma {:induction false} MadeElementsMatchSource<D, S(!new)>(dest: seq<Option<D>>, source: seq<Option<S>>,
                                                              creator: S -> Option<D>, cmp: (D, S) -> bool,
                                                              mergeable: D -> bool, same: (D, S) -> bool)
    requires FaithfulCreator(creator, cmp)
    ensures forall x :: x in Made(ReconcileAll(dest, source, creator, cmp, mergeable, same).1) ==>
      x.Some? && Matches(x.value, NonNull(source), cmp)
    decreases |source|
  {
    if source != [] {
      assert source == [source[0]] + source[1..];
      var tail := NonNull(source[1..]);
      assert forall b :: b in tail ==> b in NonNull(source);
      if source[0].None? {
        MadeElementsMatchSource(dest, source[1..], creator, cmp, mergeable, same);
        assert NonNull(source) == tail;
      } else {
        var a := source[0].value;
        var (d1, e1) := Reconcile1(dest, a, creator, cmp, mergeable, same);
        MadeElementsMatchSource(d1, source[1..], creator, cmp, mergeable, same);
        var e2 := ReconcileAll(d1, source[1..], creator, cmp, mergeable, same).1;
        MadeAppend(e1, e2);
        assert NonNull(source) == [a] + tail;
        forall x | x in Made(e1 + e2)
          ensures x.Some? && Matches(x.value, NonNull(source), cmp)
        {
          if x in Made(e1) {
            assert x == creator(a);
            assert NonNull(source)[0] == a;
          } else {
            assert x in Made(e2);
            var j :| 0 <= j < |tail| && cmp(x.value, tail[j]);
            assert tail[j] in NonNull(source);
            var k :| 0 <= k < |NonNull(source)| && NonNull(source)[k] == tail[j];
          }
        }
      }
    }
  }

  /** When every non-null source element already has an equivalent element,
      the reconciliation appends nothing. */
  lemma {:induction false} ReconcileAllAppendsNothingWhenCovered<D, S>(dest: seq<Option<D>>, source: seq<Option<S>>,
                                                                     creator: S -> Option<D>, cmp: (D, S) -> bool,
                                                                     mergeable: D -> bool, same: (D, S) -> bool)
    requires forall k :: 0 <= k < |source| && source[k].Some? ==> HasMatch(dest, source[k].value, cmp)
    ensures ReconcileAll(dest, source, creator, cmp, mergeable, same).0 == dest
    decreases |source|
  {
    if source != [] {
      assert forall k :: 1 <= k < |source| ==> source[k] == source[1..][k - 1];
      if source[0].Some? {
        var a := source[0].value;
        var j :| 0 <= j < |dest| && dest[j].Some? && cmp(dest[j].value, a);
        assert FirstMatch(dest, a, cmp, 0).Some?;
      }
      ReconcileAllAppendsNothingWhenCovered(dest, source[1..], creator, cmp, mergeable, same);
    }
  }

  /** A list whose non-null elements all match survives removal whole. */
  lemma {:induction false} SurvivorsOfMatched<D(!new), S>(ds: seq<Option<D>>, sources: seq<S>, cmp: (D, S) -> bool)
    requires forall i :: 0 <= i < |ds| && ds[i].Some? ==> Matches(ds[i].value, sources, cmp)
    ensures Survivors(ds, sources, cmp) == ds
    decreases |ds|
  {
    if ds != [] {
      assert forall i :: 1 <= i < |ds| ==> ds[1..][i - 1] == ds[i];
      SurvivorsOfMatched(ds[1..], sources, cmp);
      assert ds == [ds[0]] + ds[1..];
    }
  }

  /** With a faithful factory, every non-null element of the merged
      destination is equivalent to some non-null source element. */
  lemma {:induction false} MergedElementsAllMatch<D(!new), S(!new)>(dest: seq<Option<D>>, source: seq<Option<S>>,
                                                                   creator: S -> Option<D>, cmp: (D, S) -> bool,
                                                                   mergeable: D -> bool, same: (D, S) -> bool)
    requires FaithfulCreator(creator, cmp)
    ensures var final := Merge(Some(dest), Some(source), Some(creator), Some(cmp), mergeable, same).value.0;
      forall i :: 0 <= i < |final| && final[i].Some? ==> Matches(final[i].value, NonNull(source), cmp)
  {
    var kept := Survivors(dest, NonNull(source), cmp);
    var r := ReconcileAll(kept, source, creator, cmp, mergeable, same);
    MergeUnfolds(dest, source, creator, cmp, mergeable, same);
    MadeElementsMatchSource(kept, source, creator, cmp, mergeable, same);
    ConcatAllMatch(kept, Made(r.1), NonNull(source), cmp);
  }

  /** If every non-null element of two lists matches, so does every
      non-null element of their concatenation. */
  lemma {:induction false} ConcatAllMatch<D, S>(kept: seq<Option<D>>, made: seq<Option<D>>, sources: seq<S>, cmp: (D, S) -> bool)
    requires forall x :: x in kept ==> x.None? || Matches(x.value, sources, cmp)
    requires forall x :: x in made ==> x.Some? && Matches(x.value, sources, cmp)
    ensures forall i :: 0 <= i < |kept + made| && (kept + made)[i].Some? ==> Matches((kept + made)[i].value, sources, cmp)
  {
    forall i | 0 <= i < |kept + made| && (kept + made)[i].Some?
      ensures Matches((kept + made)[i].value, sources, cmp)
    {
      if i < |kept| {
        assert (kept + made)[i] == kept[i];
        assert kept[i] in kept;
      } else {
        assert (kept + made)[i] == made[i - |kept|];
        assert made[i - |kept|] in made;
      }
    }
  }

  /** With a faithful factory, every non-null source element is represented
      after a merge. */
  lemma {:induction false} MergeCoversSource<D(!new), S(!new)>(
    dest: seq<Option<D>>, source: seq<Option<S>>, creator: S -> Option<D>, cmp: (D, S) -> bool,
    mergeable: D -> bool, same: (D, S) -> bool)
    requires FaithfulCreator(creator, cmp)
    ensures var r := Merge(Some(dest), Some(source), Some(creator), Some(cmp), mergeable, same);
      && r.Success?
      && forall k :: 0 <= k < |source| && source[k].Some? ==> HasMatch(r.value.0, source[k].value, cmp)
  {
    MergeUnfolds(dest, source, creator, cmp, mergeable, same);
    ReconcileAllCovers(Survivors(dest, NonNull(source), cmp), source, creator, cmp, mergeable, same);
  }

  /** With a faithful factory, merging the same source a second time leaves
      the destination as the first merge left it: nothing is removed and
      nothing is created. */
  lemma {:induction false} MergeSettles<D(!new), S(!new)>(
    dest: seq<Option<D>>, source: seq<Option<S>>, creator: S -> Option<D>, cmp: (D, S) -> bool,
    mergeable: D -> bool, same: (D, S) -> bool)
    requires FaithfulCreator(creator, cmp)
    ensures var first := Merge(Some(dest), Some(source), Some(creator), Some(cmp), mergeable, same).value.0;
      Merge(Some(first), Some(source), Some(creator), Some(cmp), mergeable, same).value.0 == first
  {
    var first := Merge(Some(dest), Some(source), Some(creator), Some(cmp), mergeable, same).value.0;
    MergedElementsAllMatch(dest, source, creator, cmp, mergeable, same);
    SurvivorsOfMatched(first, NonNull(source), cmp);
    MergeCoversSource(dest, source, creator, cmp, mergeable, same);
    MergeUnfolds(first, source, creator, cmp, mergeable, same);
    ReconcileAllAppendsNothingWhenCovered(first, source, creator, cmp, mergeable, same);
  }

  // ------------------------------------------------------- Worked examples
  // Integers stand for objects; a source element `a` describes the object
  // with id `a % 100`.

  function MakeFrom(a: int): Option<int> { Some(a % 100) }
  predicate SameId(d: int, a: int) { d == a % 100 }
  predicate IsMergeable(d: int) { true }
  predicate NotMergeable(d: int) { false }
  predicate SameObject(d: int, a: int) { d == a }

  /** An empty destination gets one factory-made element per source element. */
  lemma MergeAddsCreated()
    ensures Merge(Some([]), Some([Some(101)]), Some(MakeFrom), Some(SameId), IsMergeable, SameObject)
            == Success(([Some(1)], [Created(101, Some(1))]))
  {
    var stale := Unmatched(NonNull<int>([]), NonNull([Some(101)]), SameId);
    assert stale == [];
    var kept := RemoveEach<int>([], stale);
    var r := ReconcileAll<int, int>(kept, [Some(101)], MakeFrom, SameId, IsMergeable, SameObject);
    assert FirstMatch<int, int>([], 101, SameId, 0) == None;
    assert r.0 == [Some(1)] && r.1 == [Created(101, Some(1))];
    assert Removals<int, int>(stale) + r.1 == [Created(101, Some(1))];
  }

  /** A destination element no source element matches is removed; the
      matched one stays, untouched. */
  lemma MergeRemovesUnmatchedElement()
    ensures Merge(Some([Some(1), Some(2)]), Some([Some(102)]), Some(MakeFrom), Some(SameId), NotMergeable, SameObject)
            == Success(([Some(2)], [Removed(1)]))
  {
    assert NonNull([Some(1), Some(2)]) == [1, 2] && NonNull([Some(102)]) == [102];
    assert SameId(2, [102][0]);
    assert Matches(2, [102], SameId) && !Matches(1, [102], SameId);
    var stale := Unmatched(NonNull([Some(1), Some(2)]), NonNull([Some(102)]), SameId);
    assert stale == [1];
    assert RemoveFirst([Some(1), Some(2)], 1) == [Some(2)];
    var kept := RemoveEach([Some(1), Some(2)], stale);
    assert kept == RemoveEach([Some(2)], []);
    var r := ReconcileAll<int, int>(kept, [Some(102)], MakeFrom, SameId, NotMergeable, SameObject);
    assert FirstMatch<int, int>([Some(2)], 102, SameId, 0) == Some(0);
    assert r.0 == [Some(2)] && r.1 == [];
    assert Removals<int, int>(stale) + r.1 == [Removed(1)];
  }

  /** A matched, mergeable element keeps its identity and is merged into. */
  lemma MergeUpdatesInPlace()
    ensures Merge(Some([Some(1)]), Some([Some(101)]), Some(MakeFrom), Some(SameId), IsMergeable, SameObject)
            == Success(([Some(1)], [Merged(1, 101)]))
  {
    assert NonNull([Some(1)]) == [1] && NonNull([Some(101)]) == [101];
    assert SameId(1, [101][0]);
    assert Matches(1, [101], SameId);
    var stale := Unmatched(NonNull([Some(1)]), NonNull([Some(101)]), SameId);
    assert stale == [];
    var kept := RemoveEach([Some(1)], stale);
    var r := ReconcileAll<int, int>(kept, [Some(101)], MakeFrom, SameId, IsMergeable, SameObject);
    assert FirstMatch<int, int>([Some(1)], 101, SameId, 0) == Some(0);
    assert r.0 == [Some(1)] && r.1 == [Merged(1, 101)];
    assert Removals<int, int>(stale) + r.1 == [Merged(1, 101)];
  }
}

=== FILE: view_location.dfy ===
/** The pure parts of BootstrapperContainerBase: the view type name derived
    from a view-model type name (and optional context), the per-bootstrapper
    cache of view-type lookups, and the predicate that picks the types
    registered as view models. Types are described by `TypeInfo` records;
    the assemblies' exported types are a sequence in scan order. Strings are
    compared ordinally. */
module ViewLocation {
  import opened Wrappers

  /** String.Remove(Length - 4, 4) on a name shorter than 4 characters
      throws ArgumentOutOfRangeException. */
  datatype NamingError = NameTooShort

  datatype TypeInfo = TypeInfo(fullName: string, name: string, namespace: Option<string>, interfaces: set<string>)

  // ------------------------------------------------------------ View names

  /** IndexOf for one character: the first position of `c`, or -1. */
  function IndexOf(s: string, c: char): (r: int)
    ensures -1 <= r < |s|
    ensures r == -1 <==> c !in s
    ensures r >= 0 ==> s[r] == c && forall i :: 0 <= i < r ==> s[i] != c
    decreases |s|
  {
    if s == [] then -1
    else if s[0] == c then 0
    else
      var k := IndexOf(s[1..], c);
      assert s == [s[0]] + s[1..];
      if k < 0 then -1 else k + 1
  }

  /** "Model" occurs at position `p` of `s`. */
  predicate Occurs(s: string, p: int)
  {
    0 <= p && p + 5 <= |s| && s[p..p + 5] == "Model"
  }

  /** `s` contains no "Model". */
  ghost predicate NoModel(s: string)
  {
    forall p :: !Occurs(s, p)
  }

  /** String.Replace("Model", ""): one left-to-right pass deleting each
      non-overlapping occurrence; the output is not scanned again. */
  function StripModel(s: string): (r: string)
    ensures |r| <= |s| && (|s| - |r|) % 5 == 0
    ensures forall c :: c in r ==> c in s
    decreases |s|
  {
    if |s| < 5 then s
    else if s[..5] == "Model" then StripModel(s[5..])
    else [s[0]] + StripModel(s[1..])
  }

  /** The view name before the context is applied: the full name cut at
      its first '`' (the generic arity marker), with "Model" deleted. */
  function BaseViewName(fullName: string): (r: string)
    ensures |r| <= |fullName|
    ensures '`' !in r
    ensures forall c :: c in r ==> c in fullName
    ensures '`' !in fullName ==> r == StripModel(fullName)
    ensures '`' in fullName ==>
      exists i :: 0 <= i < |fullName| && fullName[i] == '`' && '`' !in fullName[..i] && r == StripModel(fullName[..i])
  {
    var cut := IndexOf(fullName, '`');
    var kept := if cut < 0 then fullName else fullName[..cut];
    assert '`' !in kept;
    StripModel(kept)
  }

  /** The view type name computed in LocateTypeForModelType: with a
      context, the last four characters are dropped and "." + context is
      appended. */
  function ViewTypeName(fullName: string, context: Option<string>): (r: Result<string, NamingError>)
    ensures r.Failure? <==> context.Some? && |BaseViewName(fullName)| < 4
    ensures context.None? ==> r == Success(BaseViewName(fullName))
    ensures context.Some? && r.Success? ==>
      var c := context.value;
      && |r.value| == |BaseViewName(fullName)| - 4 + 1 + |c|
      && r.value[..|r.value| - |c| - 1] == BaseViewName(fullName)[..|BaseViewName(fullName)| - 4]
      && r.value[|r.value| - |c| - 1..] == "." + c
  {
    var name := BaseViewName(fullName);
    match context
    case None => Success(name)
    case Some(c) =>
      if |name| < 4 then Failure(NameTooShort)
      else Success(name[..|name| - 4] + "." + c)
  }

  /** A name without "Model" passes through Replace unchanged. */
  lemma {:induction false} StripModelKeepsCleanName(s: string)
    requires NoModel(s)
    ensures StripModel(s) == s
    decreases |s|
  {
    if |s| >= 5 {
      assert !Occurs(s, 0);
      forall p
        ensures !Occurs(s[1..], p)
      {
        if 0 <= p && p + 5 <= |s| - 1 {
          assert s[1..][p..p + 5] == s[p + 1..p + 6];
          assert !Occurs(s, p + 1);
        }
      }
      StripModelKeepsCleanName(s[1..]);
      assert s == [s[0]] + s[1..];
    }
  }

  /** Deleting every "Model": an occurrence splits the name, and each side
      is stripped on its own ("Model" has no proper prefix that is also a
      suffix, so no occurrence can straddle the split). */
  lemma {:induction false} StripModelSplits(a: string, b: string)
    ensures StripModel(a + "Model" + b) == StripModel(a) + StripModel(b)
    decreases |a|
  {
    var t := a + "Model" + b;
    if a == [] {
      assert t == "Model" + b;
      assert t[5..] == b;
    } else if |a| >= 5 && a[..5] == "Model" {
      assert t[..5] == a[..5];
      assert t[5..] == a[5..] + "Model" + b;
      StripModelSplits(a[5..], b);
    } else {
      assert t[..5] != "Model" by {
        if |a| >= 5 {
          assert t[..5] == a[..5];
        } else {
          assert t[|a|] == 'M';
          assert "Model"[|a|] != 'M';
        }
      }
      assert t[1..] == a[1..] + "Model" + b;
      StripModelSplits(a[1..], b);
      assert StripModel(a) == [a[0]] + StripModel(a[1..]);
    }
  }

  /** Joining two Model-free names with a character that does not occur in
      "Model" creates no occurrence. */
  lemma {:induction false} GlueKeepsNoModel(a: string, c: char, b: string)
    requires NoModel(a) && NoModel(b) && c !in "Model"
    ensures NoModel(a + [c] + b)
  {
    var t := a + [c] + b;
    forall p
      ensures !Occurs(t, p)
    {
      if 0 <= p && p + 5 <= |t| {
        if p + 5 <= |a| {
          assert t[p..p + 5] == a[p..p + 5];
          assert !Occurs(a, p);
        } else if p > |a| {
          assert t[p..p + 5] == b[p - |a| - 1..p - |a| + 4];
          assert !Occurs(b, p - |a| - 1);
        } else {
          assert t[p..p + 5][|a| - p] == c;
        }
      }
    }
  }

  /** The conventional view-model name carries no generic marker. */
  lemma {:induction false} ConventionalNameIsNotGeneric(ns: string, x: string)
    requires '`' !in ns && '`' !in x
    ensures IndexOf(ns + ".ViewModels." + x + "ViewModel", '`') == -1
  {
    var full := ns + ".ViewModels." + x + "ViewModel";
    forall i | 0 <= i < |full|
      ensures full[i] != '`'
    {
      if i < |ns| {
        assert full[i] == ns[i];
      } else if |ns| + 12 <= i < |ns| + 12 + |x| {
        assert full[i] == x[i - |ns| - 12];
      }
    }
  }

  /** `N.View` contains no "Model" when `N` does not. */
  lemma {:induction false} NamespaceSideClean(ns: string)
    requires NoModel(ns)
    ensures NoModel(ns + ".View")
  {
    assert NoModel("View");
    GlueKeepsNoModel(ns, '.', "View");
    assert ns + ['.'] + "View" == ns + ".View";
  }

  /** `s.XView` contains no "Model" when `X` does not. */
  lemma {:induction false} ClassSideClean(x: string)
    requires NoModel(x)
    ensures NoModel("s." + x + "View")
  {
    assert NoModel("iew") && NoModel("s");
    GlueKeepsNoModel(x, 'V', "iew");
    assert x + ['V'] + "iew" == x + "View";
    GlueKeepsNoModel("s", '.', x + "View");
    assert "s" + ['.'] + (x + "View") == "s." + x + "View";
  }

  /** Where the two occurrences of "Model" sit in the conventional name. */
  lemma ConventionalNameParts(ns: string, x: string)
    ensures ns + ".ViewModels." + x + "ViewModel" == (ns + ".View") + "Model" + (("s." + x + "View") + "Model" + "")
    ensures (ns + ".View") + ("s." + x + "View") == ns + ".Views." + x + "View"
  {
  }

  /** Deleting "Model" from the conventional view-model name. */
  lemma {:induction false} ConventionalNameStripped(ns: string, x: string)
    requires NoModel(ns) && NoModel(x)
    ensures StripModel(ns + ".ViewModels." + x + "ViewModel") == ns + ".Views." + x + "View"
  {
    var left := ns + ".View";
    var right := "s." + x + "View";
    var tail := right + "Model" + "";
    ConventionalNameParts(ns, x);
    NamespaceSideClean(ns);
    ClassSideClean(x);
    calc {
      StripModel(left + "Model" + tail);
      == { StripModelSplits(left, tail); }
      StripModel(left) + StripModel(tail);
      == { StripModelSplits(right, ""); }
      StripModel(left) + (StripModel(right) + StripModel(""));
      == { StripModelKeepsCleanName(left); StripModelKeepsCleanName(right); }
      left + right;
    }
  }

  /** The naming convention the lookup implements: the view for
      `N.ViewModels.XViewModel` is `N.Views.XView`, and with a context `C`
      it is `N.Views.X.C`. */
  lemma {:induction false} ViewNameConvention(ns: string, x: string, context: string)
    requires NoModel(ns) && NoModel(x)
    requires '`' !in ns && '`' !in x
    ensures ViewTypeName(ns + ".ViewModels." + x + "ViewModel", None) == Success(ns + ".Views." + x + "View")
    ensures ViewTypeName(ns + ".ViewModels." + x + "ViewModel", Some(context)) == Success(ns + ".Views." + x + "." + context)
  {
    var full := ns + ".ViewModels." + x + "ViewModel";
    ConventionalNameIsNotGeneric(ns, x);
    ConventionalNameStripped(ns, x);
    var name := ns + ".Views." + x + "View";
    assert BaseViewName(full) == name;
    assert name[..|name| - 4] == ns + ".Views." + x;
  }

  /** A generic type's arity suffix and type arguments play no part in the
      name. */
  lemma {:induction false} GenericArityIgnored(prefix: string, rest: string)
    requires '`' !in prefix
    ensures BaseViewName(prefix + "`" + rest) == StripModel(prefix)
  {
    var full := prefix + "`" + rest;
    assert full[|prefix|] == '`';
    assert full[..|prefix|] == prefix;
    assert forall i :: 0 <= i < |prefix| ==> full[i] == prefix[i];
    assert '`' in full;
    var k := IndexOf(full, '`');
    assert k == |prefix|;
  }

  /** Replace makes one pass: deleting an occurrence can bring a new one
      together, which stays. */
  lemma StripModelIsSinglePass()
    ensures StripModel("MoModeldel") == "Model"
  {
    assert "MoModeldel"[..5] == "MoMod";
    assert "MoModeldel"[1..] == "oModeldel";
    assert "oModeldel"[..5] == "oMode";
    assert "oModeldel"[1..] == "Modeldel";
    assert "Modeldel"[..5] == "Model";
    assert "Modeldel"[5..] == "del";
  }

  /** With a context, a base name shorter than four characters makes the
      lookup throw; without one it never does. */
  lemma ContextNeedsFourCharacters(fullName: string, context: string)
    ensures ViewTypeName(fullName, None).Success?
    ensures ViewTypeName(fullName, Some(context)).Failure? <==> |BaseViewName(fullName)| < 4
  {
  }

  // ---------------------------------------------------------------- Lookup

  /** `_typedic`: view type name to the type found for it, null included. */
  type Cache = map<string, Option<TypeInfo>>

  /** The outcome of one lookup: the view type (or null), the updated cache,
      and whether the assemblies were scanned. */
  datatype Lookup = Lookup(viewType: Option<TypeInfo>, cache: Cache, scanned: bool)

  /** Position `i` holds the first type named `name`. */
  predicate FirstAt(types: seq<TypeInfo>, name: string, i: int)
  {
    0 <= i < |types| && types[i].fullName == name && forall j :: 0 <= j < i ==> types[j].fullName != name
  }

  /** The first exported type, in scan order, with the given full name. */
  function FirstWithFullName(types: seq<TypeInfo>, name: string): (r: Option<TypeInfo>)
    ensures r.None? ==> forall i :: 0 <= i < |types| ==> types[i].fullName != name
    ensures r.Some? ==> r.value.fullName == name
    ensures r.Some? ==> exists i :: FirstAt(types, name, i) && types[i] == r.value
    decreases |types|
  {
    if types == [] then None
    else if types[0].fullName == name then Some(types[0])
    else
      var r := FirstWithFullName(types[1..], name);
      assert r.Some? ==> exists i :: FirstAt(types[1..], name, i) && types[1..][i] == r.value;
      assert forall i :: FirstAt(types[1..], name, i) ==> FirstAt(types, name, i + 1);
      r
  }

  /** LocateTypeForModelType: compute the view name; a cached entry (even a
      cached null) is returned without scanning; otherwise the first type
      with that full name is looked up and cached. */
  function LocateTypeForModelType(cache: Cache, types: seq<TypeInfo>, fullName: string, context: Option<string>)
    : (r: Result<Lookup, NamingError>)
    ensures r.Failure? <==> ViewTypeName(fullName, context).Failure?
    ensures r.Success? ==>
      var name := ViewTypeName(fullName, context).value;
      && name in r.value.cache && r.value.cache[name] == r.value.viewType
      && r.value.cache == cache[name := r.value.viewType]
      && (name in cache ==> !r.value.scanned && r.value.viewType == cache[name] && r.value.cache == cache)
      && (name !in cache ==> r.value.scanned && r.value.viewType == FirstWithFullName(types, name))
  {
    match ViewTypeName(fullName, context)
    case Failure(e) => Failure(e)
    case Success(name) =>
      if name in cache then Success(Lookup(cache[name], cache, false))
      else
        var found := FirstWithFullName(types, name);
        Success(Lookup(found, cache[name := found], true))
  }

  /** Memoisation: after one lookup, asking again for the same model type
      returns the same answer without scanning, even if the assemblies now
      hold different types, and even when the cached answer is null. */
  lemma {:induction false} LookupIsMemoised(cache: Cache, types: seq<TypeInfo>, later: seq<TypeInfo>, fullName: string, context: Option<string>)
    requires LocateTypeForModelType(cache, types, fullName, context).Success?
    ensures var first := LocateTypeForModelType(cache, types, fullName, context).value;
      var second := LocateTypeForModelType(first.cache, later, fullName, context);
      && second == Success(Lookup(first.viewType, first.cache, false))
  {
  }

  // ---------------------------------------------------- View-model filter

  /** Char.IsWhiteSpace: the Unicode space, line and paragraph separators,
      U+0009..U+000D, U+0085 and U+00A0. */
  predicate IsWhiteSpace(c: char)
  {
    || c == ' ' || ('\t' <= c <= '\r') || c == '\U{0085}' || c == '\U{00A0}'
    || c == '\U{1680}' || ('\U{2000}' <= c <= '\U{200A}') || c == '\U{2028}' || c == '\U{2029}'
    || c == '\U{202F}' || c == '\U{205F}' || c == '\U{3000}'
  }

  /** String.IsNullOrWhiteSpace. */
  predicate IsNullOrWhiteSpace(s: Option<string>)
  {
    s.None? || forall i :: 0 <= i < |s.value| ==> IsWhiteSpace(s.value[i])
  }

  /** Ordinal String.EndsWith. */
  predicate EndsWith(s: string, suffix: string)
  {
    |suffix| <= |s| && s[|s| - |suffix|..] == suffix
  }

  /** The RegisterViewsAndViewModels filter: not the root view model, the
      name ends with "ViewModel", the namespace is not blank and ends with
      "ViewModels", and INotifyPropertyChanged is implemented. */
  predicate IsViewModelType(t: TypeInfo, root: TypeInfo)
  {
    && t != root
    && EndsWith(t.name, "ViewModel")
    && !IsNullOrWhiteSpace(t.namespace)
    && t.namespace.Some? && EndsWith(t.namespace.value, "ViewModels")
    && "INotifyPropertyChanged" in t.interfaces
  }

  /** The types registered as view models, in scan order. */
  function RegisteredViewModels(types: seq<TypeInfo>, root: TypeInfo): (r: seq<TypeInfo>)
    ensures forall t :: t in r <==> t in types && IsViewModelType(t, root)
    ensures |r| <= |types|
    decreases |types|
  {
    if types == [] then []
    else (if IsViewModelType(types[0], root) then [types[0]] else []) + RegisteredViewModels(types[1..], root)
  }

  /** The blank-namespace test is implied by the suffix test: a namespace
      ending with "ViewModels" is never blank. */
  lemma {:induction false} SuffixImpliesNonBlank(ns: string)
    requires EndsWith(ns, "ViewModels")
    ensures !IsNullOrWhiteSpace(Some(ns))
  {
    assert ns[|ns| - 1] == "ViewModels"[9];
    assert !IsWhiteSpace(ns[|ns| - 1]);
  }
}

=== FILE: wrappers.dfy ===
/** Null-or-value and value-or-exception wrappers shared by every module:
    `Option` stands for a .NET reference that may be null, `Result` for a call
    that either returns or throws. */
module Wrappers {

  datatype Option<+T> = None | Some(value: T)

  datatype Result<+T, +E> = Success(value: T) | Failure(error: E)

  /** The non-null elements, in order: `Where(a => a != null)`, and also
      `OfType<object>()`, which skips null because `null is object` is
      false. */
  function NonNull<X(!new)>(s: seq<Option<X>>): (r: seq<X>)
    ensures |r| <= |s|
    ensures forall x :: x in r <==> Some(x) in s
  {
    if s == [] then []
    else (if s[0].Some? then [s[0].value] else []) + NonNull(s[1..])
  }

  /** The filter neither drops nor duplicates: each value occurs as often in
      the output as it occurs, non-null, in the input. */
  lemma {:induction false} NonNullCounts<X(!new)>(s: seq<Option<X>>)
    ensures forall x :: multiset(NonNull(s))[x] == multiset(s)[Some(x)]
    decreases |s|
  {
    if s != [] {
      assert s == [s[0]] + s[1..];
      NonNullCounts(s[1..]);
    }
  }

  /** The filter keeps the input order: filtering a concatenation filters each
      part in place. */
  lemma {:induction false} NonNullAppend<X(!new)>(a: seq<Option<X>>, b: seq<Option<X>>)
    ensures NonNull(a + b) == NonNull(a) + NonNull(b)
    decreases |a|
  {
    if a == [] {
      assert a + b == b;
    } else {
      var head: seq<X> := if a[0].Some? then [a[0].value] else [];
      assert (a + b)[0] == a[0];
      assert (a + b)[1..] == a[1..] + b;
      assert NonNull(a + b) == head + NonNull(a[1..] + b);
      NonNullAppend(a[1..], b);
      assert NonNull(a) == head + NonNull(a[1..]);
      assert head + (NonNull(a[1..]) + NonNull(b)) == (head + NonNull(a[1..])) + NonNull(b);
    }
  }

  /** The items as references that are all non-null. */
  function Lift<X>(s: seq<X>): (r: seq<Option<X>>)
    ensures |r| == |s|
    ensures forall i :: 0 <= i < |s| ==> r[i] == Some(s[i])
  {
    seq(|s|, i requires 0 <= i < |s| => Some(s[i]))
  }

  /** Filtering the lifted items gives the items back. */
  lemma {:induction false} NonNullLift<X(!new)>(s: seq<X>)
    ensures NonNull(Lift(s)) == s
    decreases |s|
  {
    if s != [] {
      assert Lift(s)[1..] == Lift(s[1..]);
      NonNullLift(s[1..]);
    }
  }

  /** Dropping the nulls and lifting the rest back is the identity exactly
      when there was no null to drop. */
  lemma {:induction false} LiftNonNullIff<X(!new)>(s: seq<Option<X>>)
    ensures Lift(NonNull(s)) == s <==> None !in s
    decreases |s|
  {
    if s == [] {
    } else if s[0].None? {
      assert |NonNull(s)| <= |s[1..]| < |s|;
    } else {
      LiftNonNullIff(s[1..]);
      assert NonNull(s) == [s[0].value] + NonNull(s[1..]);
      assert Lift(NonNull(s)) == [s[0]] + Lift(NonNull(s[1..]));
      assert s == [s[0]] + s[1..];
      if Lift(NonNull(s)) == s {
        assert Lift(NonNull(s[1..])) == s[1..];
      }
    }
  }
}
